=== FILE: README.md ===
# SceneOrganizer group store and backup policy, in Dafny

SceneOrganizer is a Unity editor window for sorting scene assets into named
groups. Under the editor widgets sit two small pieces of state logic, and this
project models them as pure functions and proves properties about them:

- **The group store.** The current window keeps an ordered list of groups.
  Each group has a name and an ordered list of scene paths. The window can
  add, rename and remove groups, and add, move and remove scenes. Every
  lookup acts on the first match, as `List.Find` does (`GroupStore`,
  `GroupStoreProperties`). The older window keeps a dictionary from group
  name to scene list (`LegacyStore`).
- **Backups.** When backups are enabled, each save copies the group asset to
  `SceneGroupData_Backup_<yyyyMMddHHmmss>.asset` and prunes the directory
  down to the three newest files (`Backups`, `Persistence`). If the live
  asset does not load, the newest backup is restored. Otherwise a fresh
  empty store is created. The settings window lists the backups in sorted
  order, preselects the last one and guards the restore button (`Settings`).
- **The scene list.** Scene paths are sorted. The search box keeps a scene
  when the query is empty, or when the scene's lower-cased base name contains
  the lower-cased query (`SceneSearch`). The list uses `Paths` for file
  names and `StringOrder` for ordinal string order.

The clock, the file system and the editor's asset database are parameters:
- a timestamp is passed in instead of `DateTime.Now`;
- the backup directory is a map from timestamp to file content;
- the asset database's scene list and the directory listing are sequences
  passed in.

Some behaviour of the code is easy to misread. The model states it as
written:

- Renaming a group does **not** reject a name another group already has
  (SceneOrganizer/SceneOrganizerWindow.cs:702-705).
  `GroupStoreProperties.RenameCanDuplicateNames` shows two groups ending up
  with one name. Group names therefore stay unique only while no rename
  introduces a clash (`RenameKeepsNamesUnique`).
- Moving a scene removes it only from the **first** group that lists it, and
  only its first occurrence there (SceneOrganizer/SceneOrganizerWindow.cs:727-734).
  The invariant that moves keep is therefore "every scene is listed at most
  once in the whole store" (`GroupStoreProperties.Partitioned`). This
  invariant implies that each scene is in at most one group. The weaker "in
  at most one group" on its own is not kept if a group lists a scene twice.
- Adding a scene to a group does not take it out of other groups
  (SceneOrganizer/SceneOrganizerWindow.cs:711-720;
  `AddSceneCanListSceneTwice`).

The store operations and the save step are modelled separately: no member
composes a store operation with `Persistence.SaveGroups`. The code saves
after adding, renaming and removing groups, after adding and moving scenes
and when the window closes, but not after the "Remove" button next to a scene
(SceneOrganizer/SceneOrganizerWindow.cs:597-598).

## Model

| member | source | states |
|---|---|---|
| `GroupStore.ValidateName` | SceneOrganizer/SceneOrganizerWindow.cs:660-672 | a name passes exactly when it is non-empty and at most 50 characters long; an empty name gives the "name required" error and a longer one the "too long" error |
| `GroupStore.FindGroup` | SceneOrganizer/SceneOrganizerWindow.cs:713 | the lookup returns the first group with that name, and no group at all exactly when none has it |
| `GroupStore.HasGroup` | SceneOrganizer/SceneOrganizerWindow.cs:679 | `List.Exists` on the group name holds exactly when the first-match search finds a group |
| `GroupStore.FindHolder` | SceneOrganizer/SceneOrganizerWindow.cs:727-734 | the first group whose scene list contains the scene, and none exactly when no group lists it |
| `GroupStore.AddNewGroup` | SceneOrganizer/SceneOrganizerWindow.cs:660-686 | earlier groups are untouched; exactly one group is appended iff the name is valid and unused, and it is a fresh group with that name and no scenes |
| `GroupStore.RenameGroup` | SceneOrganizer/SceneOrganizerWindow.cs:688-709 | an invalid new name or a missing old name changes nothing; otherwise only the name of the first group called oldName changes, at the same position and with the same scenes |
| `GroupStore.AddSceneToGroup` | SceneOrganizer/SceneOrganizerWindow.cs:711-720 | a missing group or a scene already there changes nothing; otherwise the scene is appended to that group only and every other group is unchanged |
| `GroupStore.TakeOut` | SceneOrganizer/SceneOrganizerWindow.cs:727-734 | the first occurrence of the scene leaves the first group that lists it; all other groups and all names are unchanged |
| `GroupStore.MoveSceneToGroup` | SceneOrganizer/SceneOrganizerWindow.cs:722-742 | a missing target changes nothing; otherwise the first holder loses the first occurrence of the scene, the target keeps its remaining scenes in order and gets the scene appended at the end unless it still lists it, and every group other than the holder and the target is unchanged |
| `GroupStore.RemoveGroup` | SceneOrganizer/SceneOrganizerWindow.cs:744-749 | exactly the chosen group is deleted; the others keep their contents and relative order |
| `GroupStore.AppendScene` | SceneOrganizer/SceneOrganizerWindow.cs:735-737 | the scene is in the chosen group afterwards: appended at the end when missing, otherwise nothing changes; names and other groups are untouched |
| `GroupStore.DropScene` | SceneOrganizer/SceneOrganizerWindow.cs:731 | only the chosen group changes, by losing the first occurrence of the scene; a scene it does not list changes nothing |
| `GroupStore.RemoveSceneFromGroup` | SceneOrganizer/SceneOrganizerWindow.cs:589-599 | that group loses exactly the first occurrence of the scene, the rest keeping their order, and nothing else changes; a scene it does not list changes nothing |
| `Lists.RemoveFirst` | SceneOrganizer/SceneOrganizerWindow.cs:731 | List.Remove deletes exactly the first occurrence and keeps the rest in order; an absent element changes nothing |
| `Lists.FirstIndex` | SceneOrganizer/SceneOrganizerWindow.cs:702 | List.Find yields the first element satisfying the test, or nothing exactly when no element does |
| `GroupStoreProperties.AddNewGroupIdempotent` | SceneOrganizer/SceneOrganizerWindow.cs:679-685 | adding the same name twice is the same as adding it once (a duplicate add is a no-op) |
| `GroupStoreProperties.AddedGroupIsFound` | SceneOrganizer/SceneOrganizerWindow.cs:679-685 | after adding a valid name, a lookup by that name succeeds, at the end of the list when the name was new |
| `GroupStoreProperties.AddNewGroupKeepsNamesUnique` | SceneOrganizer/SceneOrganizerWindow.cs:679 | the duplicate check keeps group names unique |
| `GroupStoreProperties.RemoveAddedGroup` | SceneOrganizer/SceneOrganizerWindow.cs:744-749 | removing the group just added restores the previous list |
| `GroupStoreProperties.RemoveGroupKeepsNamesUnique` | SceneOrganizer/SceneOrganizerWindow.cs:744-749 | removing a group keeps names unique |
| `GroupStoreProperties.RemoveGroupOccurrences` | SceneOrganizer/SceneOrganizerWindow.cs:744-749 | removing a group removes exactly its scene entries from the store |
| `GroupStoreProperties.RemoveGroupKeepsPartition` | SceneOrganizer/SceneOrganizerWindow.cs:744-749 | removing a group keeps every scene listed at most once |
| `GroupStoreProperties.RenameRoundTrip` | SceneOrganizer/SceneOrganizerWindow.cs:688-709 | renaming to an unused valid name and back restores the list |
| `GroupStoreProperties.RenameKeepsNamesUnique` | SceneOrganizer/SceneOrganizerWindow.cs:702-705 | renaming to a name no group has keeps names unique |
| `GroupStoreProperties.RenameCanDuplicateNames` | SceneOrganizer/SceneOrganizerWindow.cs:702-705 | the rename has no duplicate check: unique names can become duplicated |
| `GroupStoreProperties.AddSceneToGroupIdempotent` | SceneOrganizer/SceneOrganizerWindow.cs:711-720 | adding a scene to a group twice equals adding it once |
| `GroupStoreProperties.RemoveAddedScene` | SceneOrganizer/SceneOrganizerWindow.cs:596-599 | removing a scene right after adding it to a group that lacked it restores the store |
| `GroupStoreProperties.AddSceneKeepsPartition` | SceneOrganizer/SceneOrganizerWindow.cs:711-720 | adding a scene listed nowhere keeps every scene listed at most once |
| `GroupStoreProperties.AddSceneCanListSceneTwice` | SceneOrganizer/SceneOrganizerWindow.cs:711-720 | adding does not take the scene out of its old group, so it can end up in two groups |
| `GroupStoreProperties.PartitionedScenesInOneGroup` | SceneOrganizer/SceneGroupData.cs:12-13 | when no scene is listed twice anywhere, each scene is in at most one group and at most once in it |
| `GroupStoreProperties.TakeOutOccurrences` | SceneOrganizer/SceneOrganizerWindow.cs:727-734 | taking out lowers the scene's count by one when some group lists it and leaves other scenes' counts alone |
| `GroupStoreProperties.MoveOccurrences` | SceneOrganizer/SceneOrganizerWindow.cs:722-742 | a move leaves other scenes' counts alone and leaves a scene listed at most once listed exactly once |
| `GroupStoreProperties.MoveKeepsPartition` | SceneOrganizer/SceneOrganizerWindow.cs:722-742 | if every scene was listed at most once before a move, that still holds after |
| `GroupStoreProperties.MovedSceneInTargetOnly` | SceneOrganizer/SceneOrganizerWindow.cs:722-742 | after a move into an existing group, the scene is in that group and in no other |
| `GroupStoreProperties.MoveIntoOwnGroupReappends` | SceneOrganizer/SceneOrganizerWindow.cs:727-738 | moving a scene into the group that already holds it removes it and re-appends it at the end |
| `GroupStoreProperties.MovesKeepScenesInOneGroup` | SceneOrganizer/SceneOrganizerWindow.cs:722-742 | after any sequence of moves from a store without repeats, every scene is in at most one group |
| `GroupStoreProperties.SceneOperationsKeepNamesUnique` | SceneOrganizer/SceneOrganizerWindow.cs:711-742 | scene operations never touch group names, so unique names stay unique |
| `GroupStoreProperties.FirstGroupOfFreshStore` | SceneOrganizer/SceneGroupData.cs:7-14 | a fresh store holds no groups, and the first group added to it has the given name and no scenes |
| `GroupStoreProperties.AddAndMoveScenario` | SceneOrganizer/SceneOrganizerWindow.cs:679-742 | add Level1, add a.unity to it, add Level2, move the scene: Level1 is empty and Level2 holds the scene |
| `LegacyStore.AddGroup` | SceneOrganizerWindow.cs:208-221 | an empty name changes nothing; an existing key keeps its list; a new key maps to an empty list; other keys never change; the text field clears exactly when the name is empty or a group was added, and otherwise keeps its text |
| `LegacyStore.AddSceneToGroup` | SceneOrganizerWindow.cs:276-282 | nothing changes unless the key exists and lacks the scene; then only that key's list gains the scene at the end |
| `LegacyStore.RemoveScene` | SceneOrganizerWindow.cs:245-249 | the group loses exactly the first occurrence of the scene, the rest keeping their order; other groups are unchanged |
| `LegacyStore.RemoveGroup` | SceneOrganizerWindow.cs:256-263 | exactly that key disappears; every other key keeps its list |
| `LegacyStore.AddSceneToGroupIdempotent` | SceneOrganizerWindow.cs:276-282 | adding a scene twice equals adding it once |
| `LegacyStore.AddGroupIdempotent` | SceneOrganizerWindow.cs:216-220 | pressing "Add Group" twice with the same name leaves the store as after one press |
| `LegacyStore.RemoveAddedGroup` | SceneOrganizerWindow.cs:256-263 | removing a group just added restores the dictionary |
| `LegacyStore.RemoveAddedScene` | SceneOrganizerWindow.cs:245-249 | removing a scene just added restores the dictionary |
| `LegacyStore.LongNameAcceptedOnlyByOlderWindow` | SceneOrganizerWindow.cs:210-220 | the older window accepts a 51-character name that the current window refuses |
| `SceneSearch.LowerChar` | SceneOrganizer/SceneOrganizerWindow.cs:295 | the result is never an upper-case letter, stands for the same letter as the input ignoring case, and is the input itself unless that is upper-case |
| `SceneSearch.Lower` | SceneOrganizer/SceneOrganizerWindow.cs:295 | the lower-cased string has the same length, holds no upper-case letter, and agrees with the input position by position up to case |
| `SceneSearch.LowerIdempotent` | SceneOrganizer/SceneOrganizerWindow.cs:295 | lower-casing an already lower-cased string changes nothing |
| `SceneSearch.LowerIgnoresCase` | SceneOrganizer/SceneOrganizerWindow.cs:295 | strings that differ only in the case of their letters lower-case to the same string |
| `SceneSearch.MatchesIgnoresCase` | SceneOrganizer/SceneOrganizerWindow.cs:295 | changing the case of letters in the query does not change which scenes the search keeps |
| `SceneSearch.Matches` | SceneOrganizer/SceneOrganizerWindow.cs:295 | an empty query matches every scene; a non-empty query that matches is no longer than the scene's base name |
| `SceneSearch.MatchesOwnName` | SceneOrganizer/SceneOrganizerWindow.cs:295 | a query that spells a scene's base name, in any mix of cases, finds that scene |
| `SceneSearch.Filter` | SceneOrganizer/SceneOrganizerWindow.cs:293-301 | the shown list is a subsequence of the scenes; a scene is shown iff it matches; an empty query shows all scenes; a sorted list stays sorted; a scene that matches is shown as many times as it occurs in the list, and one that does not is never shown |
| `SceneSearch.KeepWhere` | SceneOrganizer/SceneOrganizerWindow.cs:293-301 | the kept list is a subsequence of the input; an element is kept iff the test passes; each element occurs as often as in the input when it passes and not at all otherwise; a list whose every element passes is kept whole; a sorted list stays sorted |
| `SceneSearch.ShownScenesSorted` | SceneOrganizerWindow.cs:82-87 | the list drawn for any query is sorted and holds exactly the found scenes that match the query |
| `SceneSearch.LoadScenes` | SceneOrganizerWindow.cs:42-52 | the scene list is sorted ascending in ordinal order and is a permutation of the paths the asset database found |
| `Paths.FileName` | SceneOrganizer/SettingsWindow.cs:48 | the result is the part of the path after its last `/`, `\` or `:` and contains none of them |
| `Paths.WithoutExtension` | SceneOrganizer/SceneOrganizerWindow.cs:295 | the result is the name up to its last '.', or the whole name if it has no '.' |
| `Paths.DirectoryPrefix` | SceneOrganizer/SceneOrganizerWindow.cs:107 | the part Path.Combine puts before a name is the directory itself when it is empty or already ends in `/`, `\` or `:`, and otherwise the directory followed by one `\` |
| `Paths.Combine` | SceneOrganizer/SceneOrganizerWindow.cs:107 | the joined path is the directory, then at most one inserted `\`, then the name; an empty directory adds nothing and an empty name gives the directory unchanged; between a non-empty directory and a non-empty name there is always a separator; its file name is the name again when a non-empty name holds no separator |
| `StringOrder.Insert` | SceneOrganizer/SceneOrganizerWindow.cs:73 | inserting into a sorted list keeps it sorted and adds exactly that string |
| `StringOrder.Sort` | SceneOrganizer/SceneOrganizerWindow.cs:73 | the result is sorted and a permutation of the input |
| `StringOrder.SortedUnique` | SceneOrganizer/SettingsWindow.cs:45 | two sorted arrangements of the same strings are equal, so sorting any listing gives one result |
| `StringOrder.LexLeTotal` | SceneOrganizer/SceneOrganizerWindow.cs:136 | any two strings are comparable |
| `StringOrder.LexLeTransitive` | SceneOrganizer/SceneOrganizerWindow.cs:136 | the string order is transitive |
| `StringOrder.LexLeAntisymmetric` | SceneOrganizer/SceneOrganizerWindow.cs:136 | strings that sort before each other are equal |
| `StringOrder.LexLeCommonPrefix` | SceneOrganizer/SceneOrganizerWindow.cs:106-107 | a shared directory or name prefix does not change how two strings compare |
| `StringOrder.LexLeDifferentHeads` | SceneOrganizer/SceneOrganizerWindow.cs:106 | two different equal-length strings compare the same whatever suffix follows them |
| `Backups.DigitsOrder` | SceneOrganizer/SceneOrganizerWindow.cs:105 | zero-padded numbers of one width sort as text exactly as they sort as numbers, and are equal exactly when the numbers are |
| `Backups.BackupName` | SceneOrganizer/SceneOrganizerWindow.cs:105-106 | a backup name is the fixed prefix, fourteen digits that read back as the timestamp, and the extension |
| `Backups.DigitsRoundTrip` | SceneOrganizer/SceneOrganizerWindow.cs:105 | reading back the zero-padded digits of a number that fits the width gives the number |
| `Backups.NameOrder` | SceneOrganizer/SceneOrganizerWindow.cs:105-106 | backup file names compare as text exactly as their timestamps compare as numbers |
| `Backups.Maximum` | SceneOrganizer/SceneOrganizerWindow.cs:172-173 | the result is in the directory and no timestamp there is larger |
| `Backups.SortedStamps` | SceneOrganizer/SceneOrganizerWindow.cs:136 | the sorted listing is strictly ascending and lists each backup exactly once |
| `Backups.SortedStampsOfIncreasing` | SceneOrganizer/SceneOrganizerWindow.cs:136 | an ascending list is the sorted listing of its own elements |
| `Backups.Latest` | SceneOrganizer/SceneOrganizerWindow.cs:169-173 | the backup chosen for restore is in the directory, is the newest, and has the lexicographically greatest name |
| `Backups.Retained` | SceneOrganizer/SceneOrganizerWindow.cs:134-140 | the entries left of the sorted listing are its last three, or all of it when it has at most three |
| `Backups.PruneBackups` | SceneOrganizer/SceneOrganizerWindow.cs:125-147 | only deletes; three or fewer backups are all kept; with more, exactly three are kept and every deleted one is older than every kept one |
| `Backups.Backup` | SceneOrganizer/SceneOrganizerWindow.cs:105-116 | the files afterwards come from the old ones plus the new one; all of them stay when there are at most three; otherwise exactly three stay and every deleted file is older than every kept one; the new file survives when it is the newest |
| `Backups.PruneIdempotent` | SceneOrganizer/SceneOrganizerWindow.cs:134-141 | pruning a directory a second time deletes nothing more |
| `Backups.BackupTwice` | SceneOrganizer/SceneOrganizerWindow.cs:105-116 | a second backup in the same second, after one whose file survived, leaves the same set of files |
| `Backups.NewestThreeSurvive` | SceneOrganizer/SceneOrganizerWindow.cs:105-141 | after three or more backups in time order, exactly the three newest remain |
| `Backups.PruneAfterNewest` | SceneOrganizer/SceneOrganizerWindow.cs:134-141 | pruning after a newest file is added keeps the last three of the grown sorted listing |
| `Backups.BackupSeriesRetains` | SceneOrganizer/SceneOrganizerWindow.cs:134-141 | after a series of newer backups the directory holds the last three of the combined sorted listing |
| `Backups.IncreasingCardinality` | SceneOrganizer/SceneOrganizerWindow.cs:137 | an ascending listing has as many distinct files as entries |
| `Backups.SplitIncreasing` | SceneOrganizer/SceneOrganizerWindow.cs:137-140 | deleting the first entries of the sorted listing leaves exactly the later, newer ones |
| `Persistence.SaveGroups` | SceneOrganizer/SceneOrganizerWindow.cs:77-123 | with backups off or no directory nothing changes; otherwise the directory becomes a pruned copy holding the saved store under now, other files keep their content |
| `Persistence.LoadGroups` | SceneOrganizer/SceneOrganizerWindow.cs:149-204 | a loading asset wins; a restore happens only with backups on and a usable directory, and uses the newest file; every other path without a live asset, including an unreadable newest backup, ends in a fresh empty store |
| `Persistence.RestoreAfterLoss` | SceneOrganizer/SceneOrganizerWindow.cs:164-182 | save with backup, lose the live asset, load: the saved store comes back from the backup just written |
| `Persistence.SameSecondOverwrites` | SceneOrganizer/SceneOrganizerWindow.cs:112 | two saves in the same second leave one file for that second, holding the later store |
| `Settings.EffectiveDirectory` | SceneOrganizer/SettingsWindow.cs:28-32 | an empty directory becomes the data path and any other value is kept, so the result is never empty when the data path is set |
| `Settings.LoadPreferences` | SceneOrganizer/SettingsWindow.cs:22-33 | the flag defaults to false; a missing or empty directory becomes the data path and a set one is kept |
| `Settings.SaveSettings` | SceneOrganizer/SettingsWindow.cs:115-126 | an empty directory is replaced by the data path, and a set directory is kept |
| `Settings.SaveLoadedPreferences` | SceneOrganizer/SettingsWindow.cs:22-33 | saving the preferences just loaded writes them back unchanged |
| `Settings.BackupPaths` | SceneOrganizer/SettingsWindow.cs:44-45 | the full backup paths in time order are sorted, and their file names are the backup names in time order |
| `Settings.BackupNameHasNoSeparator` | SceneOrganizer/SceneOrganizerWindow.cs:106 | a backup file name contains no directory separator |
| `Settings.LoadBackupFiles` | SceneOrganizer/SettingsWindow.cs:38-63 | no directory, a missing one or a listing error give an empty list and index -1; otherwise one file name per listed path; the index is always the last position, -1 exactly when the list is empty |
| `Settings.BackupListInTimeOrder` | SceneOrganizer/SettingsWindow.cs:44-55 | whatever order the directory lists files in, the list shows the backup names oldest first, is sorted, and preselects the newest |
| `Settings.RestoreChoice` | SceneOrganizer/SettingsWindow.cs:90-97 | a file is offered exactly when the selected index lies inside the list, and it is the selected entry |
| `Settings.RestoreOffersNewest` | SceneOrganizer/SettingsWindow.cs:90-97 | right after loading, restore is offered exactly when there is a backup, and it offers the newest, the same file the load step restores |

## Left out

- Rendering, layout, scroll positions, the collapsed-group dictionary, the watermark and the resize handle are immediate-mode UI with no state logic.
- Drag-and-drop and the "Add Selected Scene to Group" menu only route a scene and a group name into `AddSceneToGroup`. The drag threshold, double-click timing and window-size arithmetic use floating point and are not modelled.
- The binary serialization of the older window, Unity asset serialization, `EditorPrefs`, dialogs, `AssetDatabase` calls, opening scenes, renaming scene assets and the create-scene window are host services. They appear only as parameters or not at all.
- The copying done by a restore (the backup file replaces the live asset and the window reloads) is file I/O. The model covers only which file is chosen.
- Exceptions from file operations are not modelled, except a failed listing in the settings window, which yields an empty list (`Settings.LoadBackupFiles` takes it as a `None` listing). The others have visible effects the model does not cover: a failed backup copy (SceneOrganizer/SceneOrganizerWindow.cs:112, caught at :119) skips both the backup and the pruning; a failed delete while pruning (:139, caught at :143) stops the pruning and can leave more than three backups; an exception while loading (:199-203) ends in a fresh empty store.
- Saving after a store operation is not modelled as one step. In particular `MoveSceneToGroupInternal` saves, and backs up, even when the target group does not exist (SceneOrganizer/SceneOrganizerWindow.cs:741); the model covers that save only as a separate `Persistence.SaveGroups` of the unchanged store.
- Persistence.LoadGroups: an exception during loading also ends in a fresh empty store. The model has no parameter for that case.
- Persistence.SaveGroups: assumes the saved asset exists when the backup copy runs (`File.Exists(sourcePath)`). It also assumes creating the backup directory succeeds.
- Backups.PruneBackups: the directory holds only well-formed backup names. Other files matching `SceneGroupData_Backup_*.asset` would also be sorted and deleted by the code.
- StringOrder.Sort: `List.Sort` and `Array.Sort` on strings use the culture-sensitive comparer. The model uses ordinal code-point order. The two agree on backup names, which share a prefix and differ only in digits.
- SceneSearch.LoadScenes: sorts scene paths in ordinal order, where `scenes.Sort()` uses the culture-sensitive comparer. The two disagree on mixed case: the culture order puts `Assets/b.unity` before `Assets/C.unity`, ordinal order after it. The list shown can therefore be ordered differently from the editor's.
- SceneSearch.Lower: `ToLower` is culture-sensitive. The model lower-cases ASCII letters only.
- GroupStore.ValidateName: .NET counts name length in UTF-16 code units. The model counts characters, so they differ for characters outside the Basic Multilingual Plane.
- Paths.Combine: only names that are not rooted are modelled. The separator and file-name clauses hold for a non-empty name only; for an empty name `Path.Combine` returns the directory unchanged, as the model does.
- Paths.FileName: follows the Windows editor, where `/` and `\` separate directories, `:` ends a drive name, and `Path.Combine` inserts `\`. On macOS or Linux only `/` separates, so a name holding `\` or `:` would split differently there. Rooted names passed as the second argument of `Path.Combine` are not modelled.
- The older window's `LoadGroups` and `SaveGroups` are binary file I/O. They are not modelled.

=== FILE: backups.dfy ===
/**
 * Timestamped backup copies of the group data. A backup file is named
 * SceneGroupData_Backup_<yyyyMMddHHmmss>.asset; the backup directory is
 * modelled as the set of timestamps of the files in it (copying over an
 * existing name leaves one file, which a set captures). Pruning keeps the
 * three newest files; restoring picks the newest.
 */
module Backups {
  import opened StringOrder
  import opened Lists

  /** Number of digits in a yyyyMMddHHmmss timestamp. */
  const StampWidth: nat := 14
  const StampLimit: nat := 100000000000000

  /** A timestamp read as the 14-digit decimal number it is written as. */
  type Timestamp = t: nat | t < StampLimit

  const NamePrefix: string := "SceneGroupData_Backup_"
  const NameExtension: string := ".asset"

  /** How many backup files survive pruning. */
  const KeepCount: nat := 3

  function Pow10(n: nat): (r: nat)
    ensures r >= 1
  {
    if n == 0 then 1 else 10 * Pow10(n - 1)
  }

  function DigitChar(d: nat): (c: char)
    requires d < 10
    ensures '0' <= c <= '9'
  {
    (48 + d) as char
  }

  /** The low `width` decimal digits of n, most significant first, padded with zeros. */
  function Digits(n: nat, width: nat): (r: string)
    ensures |r| == width
  {
    if width == 0 then "" else Digits(n / 10, width - 1) + [DigitChar(n % 10)]
  }

  /** The number a string of decimal digits stands for (a non-digit reads as 0). */
  function DigitsValue(s: string): nat {
    if |s| == 0 then 0
    else
      var c := s[|s| - 1];
      10 * DigitsValue(s[..|s| - 1]) + (if '0' <= c <= '9' then c as int - 48 else 0)
  }

  /** Reading back the zero-padded digits of a number that fits the width gives the number. */
  lemma {:induction false} DigitsRoundTrip(n: nat, width: nat)
    requires n < Pow10(width)
    ensures DigitsValue(Digits(n, width)) == n
    decreases width
  {
    if width > 0 {
      var s := Digits(n, width);
      assert s[..|s| - 1] == Digits(n / 10, width - 1);
      DigitsRoundTrip(n / 10, width - 1);
    }
  }

  /**
   * The file name BackupGroups gives a backup taken at time t: the fixed
   * prefix, fourteen digits that read back as t, and the extension.
   */
  function BackupName(t: Timestamp): (r: string)
    ensures |r| == |NamePrefix| + StampWidth + |NameExtension|
    ensures r[..|NamePrefix|] == NamePrefix
    ensures r[|NamePrefix| + StampWidth..] == NameExtension
    ensures DigitsValue(r[|NamePrefix|..|NamePrefix| + StampWidth]) == t
  {
    StampLimitIsPow10();
    DigitsRoundTrip(t, StampWidth);
    var r := NamePrefix + Digits(t, StampWidth) + NameExtension;
    assert r[|NamePrefix|..|NamePrefix| + StampWidth] == Digits(t, StampWidth);
    r
  }

  lemma StampLimitIsPow10()
    ensures Pow10(StampWidth) == StampLimit
  {
  }

  /** Zero-padded numbers of one width sort as text exactly as they sort as numbers. */
  lemma {:induction false} DigitsOrder(a: nat, b: nat, w: nat)
    requires a < Pow10(w) && b < Pow10(w)
    ensures LexLe(Digits(a, w), Digits(b, w)) <==> a <= b
    ensures Digits(a, w) == Digits(b, w) <==> a == b
    decreases w
  {
    if w == 0 {
      assert a == 0 && b == 0;
    } else {
      var a', b' := a / 10, b / 10;
      var ra, rb := a % 10, b % 10;
      assert a == 10 * a' + ra && b == 10 * b' + rb;
      assert a' < Pow10(w - 1) && b' < Pow10(w - 1);
      DigitsOrder(a', b', w - 1);
      var da, db := Digits(a', w - 1), Digits(b', w - 1);
      var ca, cb := DigitChar(ra), DigitChar(rb);
      assert Digits(a, w) == da + [ca] && Digits(b, w) == db + [cb];
      if a' == b' {
        LexLeCommonPrefix(da, [ca], [cb]);
        assert LexLe([ca], [cb]) <==> ca <= cb by {
          assert [ca][1..] == [] && [cb][1..] == [];
        }
        assert ca <= cb <==> ra <= rb;
        assert da + [ca] == db + [cb] <==> ca == cb by {
          if da + [ca] == db + [cb] {
            assert (da + [ca])[|da|] == ca && (db + [cb])[|db|] == cb;
          }
        }
      } else {
        LexLeDifferentHeads(da, db, [ca], [cb]);
        assert a' < b' ==> a < b;
        assert b' < a' ==> b < a;
        assert (da + [ca])[..|da|] == da && (db + [cb])[..|db|] == db;
      }
    }
  }

  /**
   * Because the prefix, the width and the extension are fixed, comparing two
   * backup names as text is comparing their timestamps as numbers.
   */
  lemma NameOrder(a: Timestamp, b: Timestamp)
    ensures LexLe(BackupName(a), BackupName(b)) <==> a <= b
    ensures BackupName(a) == BackupName(b) <==> a == b
  {
    StampLimitIsPow10();
    var da, db := Digits(a, StampWidth), Digits(b, StampWidth);
    DigitsOrder(a, b, StampWidth);
    assert BackupName(a) == NamePrefix + (da + NameExtension);
    assert BackupName(b) == NamePrefix + (db + NameExtension);
    LexLeCommonPrefix(NamePrefix, da + NameExtension, db + NameExtension);
    if a == b {
      LexLeReflexive(BackupName(a));
    } else {
      LexLeDifferentHeads(da, db, NameExtension, NameExtension);
      assert BackupName(a)[|NamePrefix|..|NamePrefix| + StampWidth] == da;
      assert BackupName(b)[|NamePrefix|..|NamePrefix| + StampWidth] == db;
    }
  }

  /** Strictly ascending (so also without repeats). */
  predicate Increasing(s: seq<Timestamp>) {
    forall i, j :: 0 <= i < j < |s| ==> s[i] < s[j]
  }

  /** m is a timestamp of d and no timestamp of d is larger. */
  predicate IsMaximum(d: set<Timestamp>, m: Timestamp) {
    m in d && forall x :: x in d ==> x <= m
  }

  lemma {:induction false} MaximumExists(d: set<Timestamp>)
    requires d != {}
    ensures exists m :: IsMaximum(d, m)
    decreases |d|
  {
    var y :| y in d;
    var top := y;
    if d - {y} != {} {
      MaximumExists(d - {y});
      var m :| IsMaximum(d - {y}, m);
      top := if m < y then y else m;
    }
    forall x | x in d ensures x <= top {
      if x != y {
        assert x in d - {y};
      }
    }
    assert IsMaximum(d, top);
  }

  /** The largest timestamp in a non-empty directory. */
  function Maximum(d: set<Timestamp>): (m: Timestamp)
    requires d != {}
    ensures m in d && forall x :: x in d ==> x <= m
  {
    MaximumExists(d);
    var m :| IsMaximum(d, m);
    m
  }

  /** Array.Sort on the backup listing: the timestamps in ascending order. */
  function SortedStamps(d: set<Timestamp>): (r: seq<Timestamp>)
    ensures Increasing(r)
    ensures Elements(r) == d
    ensures |r| == |d|
    decreases |d|
  {
    if d == {} then []
    else
      var m := Maximum(d);
      var rest := SortedStamps(d - {m});
      PlaceMaximum(d, m, rest);
      rest + [m]
  }

  /** Appending the maximum to the sorted listing of the other timestamps sorts the whole directory. */
  lemma PlaceMaximum(d: set<Timestamp>, m: Timestamp, rest: seq<Timestamp>)
    requires m in d && forall x :: x in d ==> x <= m
    requires Increasing(rest) && Elements(rest) == d - {m} && |rest| == |d - {m}|
    ensures Increasing(rest + [m]) && Elements(rest + [m]) == d && |rest + [m]| == |d|
  {
    BelowMaximum(d, m, rest);
    AppendLarger(rest, m);
    ElementsAppend(rest, m);
    assert |d - {m}| == |d| - 1;
  }

  lemma BelowMaximum(d: set<Timestamp>, m: Timestamp, rest: seq<Timestamp>)
    requires forall x :: x in d ==> x <= m
    requires Elements(rest) == d - {m}
    ensures forall i :: 0 <= i < |rest| ==> rest[i] < m
  {
    forall i | 0 <= i < |rest| ensures rest[i] < m {
      assert rest[i] in Elements(rest);
    }
  }

  lemma ElementsAppend<T>(s: seq<T>, x: T)
    ensures Elements(s + [x]) == Elements(s) + {x}
  {
  }

  lemma AppendLarger(s: seq<Timestamp>, m: Timestamp)
    requires Increasing(s)
    requires forall i :: 0 <= i < |s| ==> s[i] < m
    ensures Increasing(s + [m])
  {
    forall i, j | 0 <= i < j < |s + [m]| ensures (s + [m])[i] < (s + [m])[j] {
      if j == |s| {
        assert (s + [m])[i] == s[i] && (s + [m])[j] == m;
      } else {
        assert s[i] < s[j];
        assert (s + [m])[i] == s[i] && (s + [m])[j] == s[j];
      }
    }
  }

  /** An ascending sequence is the sorted listing of its own elements. */
  lemma {:induction false} SortedStampsOfIncreasing(s: seq<Timestamp>)
    requires Increasing(s)
    ensures SortedStamps(Elements(s)) == s
    decreases |s|
  {
    if |s| > 0 {
      var n := |s| - 1;
      var init := s[..n];
      assert s == init + [s[n]];
      assert s[n] in Elements(s);
      assert Maximum(Elements(s)) == s[n] by {
        var m := Maximum(Elements(s));
        assert m in s;
        assert forall x :: x in s ==> x <= s[n];
      }
      assert Elements(s) - {s[n]} == Elements(init) by {
        assert forall x :: x in init ==> x < s[n];
      }
      SortedStampsOfIncreasing(init);
    }
  }

  /** The name the load step restores from: the last one after sorting. */
  function Latest(d: set<Timestamp>): (t: Timestamp)
    requires d != {}
    ensures t in d
    ensures forall x :: x in d ==> x <= t
    ensures forall x :: x in d ==> LexLe(BackupName(x), BackupName(t))
  {
    var sorted := SortedStamps(d);
    var t := sorted[|sorted| - 1];
    assert forall x :: x in d ==> x <= t by {
      forall x | x in d ensures x <= t {
        assert x in Elements(sorted);
        var i :| 0 <= i < |sorted| && sorted[i] == x;
      }
    }
    assert forall x :: x in d ==> LexLe(BackupName(x), BackupName(t)) by {
      forall x | x in d ensures LexLe(BackupName(x), BackupName(t)) {
        NameOrder(x, t);
      }
    }
    t
  }

  /** The newest timestamp of a directory is the one Latest picks. */
  lemma LatestIs(d: set<Timestamp>, t: Timestamp)
    requires t in d && forall x :: x in d ==> x <= t
    ensures Latest(d) == t
  {
  }

  /** Which files remain: all of them, or only the last KeepCount of the sorted listing. */
  function Retained(sorted: seq<Timestamp>): (r: seq<Timestamp>)
    ensures |r| == if |sorted| > KeepCount then KeepCount else |sorted|
    ensures r == sorted[|sorted| - |r|..]
  {
    if |sorted| > KeepCount then sorted[|sorted| - KeepCount..] else sorted
  }

  lemma {:induction false} IncreasingCardinality(s: seq<Timestamp>)
    requires Increasing(s)
    ensures |Elements(s)| == |s|
    decreases |s|
  {
    if |s| > 0 {
      var n := |s| - 1;
      assert s == s[..n] + [s[n]];
      assert Elements(s) == Elements(s[..n]) + {s[n]};
      assert s[n] !in Elements(s[..n]);
      IncreasingCardinality(s[..n]);
    }
  }

  /**
   * ManageBackupCopies: with more than three backups, sort the names and
   * delete all but the last three; with three or fewer, delete nothing.
   * What remains is the last three entries of the sorted listing.
   */
  function PruneBackups(d: set<Timestamp>): (kept: set<Timestamp>)
    ensures kept <= d
    ensures |d| <= KeepCount ==> kept == d
    ensures |d| > KeepCount ==> |kept| == KeepCount
    ensures forall k, x :: k in kept && x in d && x !in kept ==> x < k
  {
    var sorted := SortedStamps(d);
    RetainedNewest(sorted);
    Elements(Retained(sorted))
  }

  /** The last three entries of an ascending listing are distinct and newer than every entry cut off. */
  lemma RetainedNewest(sorted: seq<Timestamp>)
    requires Increasing(sorted)
    ensures Elements(Retained(sorted)) <= Elements(sorted)
    ensures |sorted| <= KeepCount ==> Retained(sorted) == sorted
    ensures |Elements(Retained(sorted))| == |Retained(sorted)|
    ensures forall k, x :: k in Elements(Retained(sorted)) && x in Elements(sorted) && x !in Elements(Retained(sorted)) ==> x < k
  {
    var cut := if |sorted| > KeepCount then |sorted| - KeepCount else 0;
    assert Retained(sorted) == sorted[cut..];
    SplitIncreasing(sorted, cut);
    IncreasingCardinality(sorted[cut..]);
  }

  /** Pruning an already pruned directory deletes nothing more. */
  lemma PruneIdempotent(d: set<Timestamp>)
    ensures PruneBackups(PruneBackups(d)) == PruneBackups(d)
  {
    var kept := PruneBackups(d);
    assert |kept| <= KeepCount;
  }

  /** A second backup in the same second, after one whose file survived, leaves the same files. */
  lemma BackupTwice(d: set<Timestamp>, now: Timestamp)
    requires now in Backup(d, now)
    ensures Backup(Backup(d, now), now) == Backup(d, now)
  {
    BackupPrunes(d, now);
    BackupPrunes(Backup(d, now), now);
    PruneWithKept(d + {now}, now);
  }

  lemma SetWithMember(s: set<Timestamp>, x: Timestamp)
    requires x in s
    ensures s + {x} == s
  {
  }

  /** Adding a file that pruning already kept, then pruning again, changes nothing. */
  lemma PruneWithKept(e: set<Timestamp>, now: Timestamp)
    requires now in PruneBackups(e)
    ensures PruneBackups(PruneBackups(e) + {now}) == PruneBackups(e)
  {
    var kept := PruneBackups(e);
    SetWithMember(kept, now);
    PruneIdempotent(e);
  }

  /** A backup taken no earlier than every file keeps its own file, and nothing newer. */
  lemma BackupKeepsNewest(d: set<Timestamp>, now: Timestamp)
    requires forall x :: x in d ==> x <= now
    ensures now in Backup(d, now)
    ensures forall t :: t in Backup(d, now) ==> t <= now
  {
  }

  /** A backup is a pruning of the directory with the new file added. */
  lemma BackupPrunes(d: set<Timestamp>, now: Timestamp)
    ensures Backup(d, now) == PruneBackups(d + {now})
  {
  }

  /** Cutting an ascending listing in two: the later part is what remains, and it is newer. */
  lemma SplitIncreasing(s: seq<Timestamp>, cut: nat)
    requires Increasing(s) && cut <= |s|
    ensures Elements(s) - Elements(s[..cut]) == Elements(s[cut..])
    ensures forall k, x :: k in Elements(s[cut..]) && x in Elements(s[..cut]) ==> x < k
    ensures Increasing(s[cut..])
  {
    SplitOrder(s, cut);
    SplitElements(s, cut);
    IncreasingSuffix(s, cut);
  }

  lemma SplitOrder(s: seq<Timestamp>, cut: nat)
    requires Increasing(s) && cut <= |s|
    ensures forall k, x :: k in Elements(s[cut..]) && x in Elements(s[..cut]) ==> x < k
  {
    forall k, x | k in Elements(s[cut..]) && x in Elements(s[..cut]) ensures x < k {
      var j :| 0 <= j < |s[cut..]| && s[cut..][j] == k;
      var i :| 0 <= i < |s[..cut]| && s[..cut][i] == x;
      assert s[cut + j] == k && s[i] == x;
    }
  }

  lemma SplitElements(s: seq<Timestamp>, cut: nat)
    requires Increasing(s) && cut <= |s|
    requires forall k, x :: k in Elements(s[cut..]) && x in Elements(s[..cut]) ==> x < k
    ensures Elements(s) - Elements(s[..cut]) == Elements(s[cut..])
  {
    forall x | x in Elements(s[cut..]) ensures x in Elements(s) {
      var j :| 0 <= j < |s[cut..]| && s[cut..][j] == x;
      assert s[cut + j] == x;
    }
    forall x | x in Elements(s) && x !in Elements(s[..cut]) ensures x in Elements(s[cut..]) {
      var j :| 0 <= j < |s| && s[j] == x;
      assert s[cut..][j - cut] == x;
    }
  }

  lemma IncreasingSuffix(s: seq<Timestamp>, cut: nat)
    requires Increasing(s) && cut <= |s|
    ensures Increasing(s[cut..])
  {
    forall i, j | 0 <= i < j < |s[cut..]| ensures s[cut..][i] < s[cut..][j] {
      assert s[cut..][i] == s[cut + i] && s[cut..][j] == s[cut + j];
    }
  }

  /** One backup: the copy adds (or overwrites) the file for now, then the directory is pruned. */
  function Backup(d: set<Timestamp>, now: Timestamp): (r: set<Timestamp>)
    ensures r <= d + {now}
    ensures |d + {now}| <= KeepCount ==> r == d + {now}
    ensures |d + {now}| > KeepCount ==> |r| == KeepCount
    ensures forall k, x :: k in r && x in d + {now} && x !in r ==> x < k
    ensures |r| <= KeepCount || r == d + {now}
    ensures (forall x :: x in d ==> x <= now) ==> now in r
  {
    PruneBackups(d + {now})
  }

  /** A series of backups taken at the given times, oldest first. */
  function BackupSeries(d: set<Timestamp>, stamps: seq<Timestamp>): set<Timestamp>
    decreases |stamps|
  {
    if |stamps| == 0 then d
    else Backup(BackupSeries(d, stamps[..|stamps| - 1]), stamps[|stamps| - 1])
  }

  /** Pruning a listing that grows by a newer name keeps the last three of the grown listing. */
  lemma PruneAfterNewest(s: seq<Timestamp>, t: Timestamp)
    requires Increasing(s + [t])
    ensures Backup(Elements(s), t) == Elements(Retained(s + [t]))
  {
    ElementsAppend(s, t);
    SortedStampsOfIncreasing(s + [t]);
    IncreasingCardinality(s + [t]);
    PruneOfSorted(Elements(s) + {t}, s + [t]);
  }

  /** Pruning a directory whose sorted listing is known keeps the last three of that listing. */
  lemma PruneOfSorted(d: set<Timestamp>, sorted: seq<Timestamp>)
    requires SortedStamps(d) == sorted
    ensures PruneBackups(d) == Elements(Retained(sorted))
  {
  }

  lemma RetainedOfRetained(x: seq<Timestamp>, t: Timestamp)
    ensures Retained(Retained(x) + [t]) == Retained(x + [t])
  {
  }

  lemma RetainedKeepsIncreasing(x: seq<Timestamp>, t: Timestamp)
    requires Increasing(x + [t])
    ensures Increasing(Retained(x) + [t])
  {
    if |x| > KeepCount {
      var c := |x| - KeepCount;
      assert Retained(x) + [t] == (x + [t])[c..];
    }
  }

  lemma {:induction false} BackupSeriesRetains(d: set<Timestamp>, stamps: seq<Timestamp>)
    requires |stamps| > 0
    requires Increasing(SortedStamps(d) + stamps)
    ensures BackupSeries(d, stamps) == Elements(Retained(SortedStamps(d) + stamps))
    decreases |stamps|
  {
    var n := |stamps| - 1;
    if n == 0 {
      FirstOfSeries(d, stamps);
    } else {
      SeriesPrefix(d, stamps);
      BackupSeriesRetains(d, stamps[..n]);
      SeriesStep(BackupSeries(d, stamps[..n]), SortedStamps(d) + stamps[..n], stamps[n]);
    }
  }

  /** The first backup of a series, taken after every file already there. */
  lemma FirstOfSeries(d: set<Timestamp>, stamps: seq<Timestamp>)
    requires |stamps| == 1
    requires Increasing(SortedStamps(d) + stamps)
    ensures BackupSeries(d, stamps) == Elements(Retained(SortedStamps(d) + stamps))
  {
    var base := SortedStamps(d);
    assert stamps == [stamps[0]];
    assert BackupSeries(d, stamps[..0]) == d;
    PruneAfterNewest(base, stamps[0]);
  }

  /** The listing before the last backup of a series is ascending too. */
  lemma SeriesPrefix(d: set<Timestamp>, stamps: seq<Timestamp>)
    requires |stamps| > 1
    requires Increasing(SortedStamps(d) + stamps)
    ensures Increasing(SortedStamps(d) + stamps[..|stamps| - 1])
    ensures SortedStamps(d) + stamps == (SortedStamps(d) + stamps[..|stamps| - 1]) + [stamps[|stamps| - 1]]
  {
    DropLast(SortedStamps(d), stamps);
  }

  lemma DropLast(a: seq<Timestamp>, b: seq<Timestamp>)
    requires |b| > 0 && Increasing(a + b)
    ensures Increasing(a + b[..|b| - 1])
    ensures a + b == (a + b[..|b| - 1]) + [b[|b| - 1]]
  {
    var s := a + b;
    IncreasingPrefix(s, |s| - 1);
    assert s[..|s| - 1] == a + b[..|b| - 1];
    assert s == s[..|s| - 1] + [s[|s| - 1]];
  }

  lemma IncreasingPrefix(s: seq<Timestamp>, k: nat)
    requires Increasing(s) && k <= |s|
    ensures Increasing(s[..k])
  {
  }

  /** One more, newest backup on a directory that holds the last three of x. */
  lemma SeriesStep(prev: set<Timestamp>, x: seq<Timestamp>, t: Timestamp)
    requires prev == Elements(Retained(x))
    requires Increasing(x + [t])
    ensures Backup(prev, t) == Elements(Retained(x + [t]))
  {
    RetainedKeepsIncreasing(x, t);
    PruneAfterNewest(Retained(x), t);
    RetainedOfRetained(x, t);
  }

  /**
   * After three or more backups taken in increasing time order, each newer
   * than every file already in the directory, exactly the three newest
   * remain.
   */
  lemma NewestThreeSurvive(d: set<Timestamp>, stamps: seq<Timestamp>)
    requires |stamps| >= KeepCount
    requires Increasing(stamps)
    requires forall x :: x in d ==> x < stamps[0]
    ensures BackupSeries(d, stamps) == Elements(stamps[|stamps| - KeepCount..])
    ensures |BackupSeries(d, stamps)| == KeepCount
  {
    SeriesOfNewer(d, stamps);
    RetainedOfLongTail(SortedStamps(d), stamps);
    LastThreeDistinct(stamps);
  }

  lemma LastThreeDistinct(stamps: seq<Timestamp>)
    requires |stamps| >= KeepCount && Increasing(stamps)
    ensures |Elements(stamps[|stamps| - KeepCount..])| == KeepCount
  {
    IncreasingSuffix(stamps, |stamps| - KeepCount);
    IncreasingCardinality(stamps[|stamps| - KeepCount..]);
  }

  /** A series of backups, each newer than every file already there, keeps the last three of the joined listing. */
  lemma SeriesOfNewer(d: set<Timestamp>, stamps: seq<Timestamp>)
    requires |stamps| > 0
    requires Increasing(stamps)
    requires forall x :: x in d ==> x < stamps[0]
    ensures BackupSeries(d, stamps) == Elements(Retained(SortedStamps(d) + stamps))
  {
    IncreasingJoin(SortedStamps(d), stamps, d);
    BackupSeriesRetains(d, stamps);
  }

  lemma RetainedOfLongTail(base: seq<Timestamp>, stamps: seq<Timestamp>)
    requires |stamps| >= KeepCount
    ensures Retained(base + stamps) == stamps[|stamps| - KeepCount..]
  {
    var all := base + stamps;
    if |all| > KeepCount {
      assert all[|all| - KeepCount..] == stamps[|stamps| - KeepCount..];
    }
  }

  lemma IncreasingJoin(base: seq<Timestamp>, stamps: seq<Timestamp>, d: set<Timestamp>)
    requires Increasing(base) && Elements(base) == d
    requires |stamps| > 0 && Increasing(stamps)
    requires forall x :: x in d ==> x < stamps[0]
    ensures Increasing(base + stamps)
  {
    forall i, j | 0 <= i < j < |base + stamps| ensures (base + stamps)[i] < (base + stamps)[j] {
      if j < |base| {
        assert base[i] < base[j];
      } else if i >= |base| {
        assert stamps[i - |base|] < stamps[j - |base|];
      } else {
        assert base[i] in Elements(base);
        assert stamps[0] <= stamps[j - |base|];
      }
    }
  }
}

=== FILE: group_store.dfy ===
/**
 * The group store of the current window: an ordered list of named groups,
 * each an ordered list of scene asset paths, and the operations the window
 * applies to it. Every operation is a function from the old list to the new
 * one; lookups act on the first group that matches, as List.Find does.
 */
module GroupStore {
  import opened Wrappers
  import opened Lists

  /** SceneGroupData.SceneGroup: a group name and its scene paths in insertion order. */
  datatype Group = Group(name: string, scenes: seq<string>)

  /** SceneGroupData.sceneGroups. The type does not make names unique. */
  type Store = seq<Group>

  const MaxGroupNameLength: nat := 50

  /** A freshly created SceneGroupData holds no groups. */
  const EmptyStore: Store := []

  /** A freshly created SceneGroup: the given name and no scenes. */
  function NewGroup(name: string): Group {
    Group(name, [])
  }

  /** Why a group name is refused (each case shows its own dialog). */
  datatype NameError = NameRequired | NameTooLong

  /**
   * The check AddNewGroupInternal and RenameGroupInternal make before anything
   * else: a name must be non-empty and at most 50 characters long.
   */
  function ValidateName(name: string): (r: Option<NameError>)
    ensures r.None? <==> 0 < |name| <= MaxGroupNameLength
    ensures r == Some(NameRequired) <==> |name| == 0
    ensures r == Some(NameTooLong) <==> |name| > MaxGroupNameLength
  {
    if |name| == 0 then Some(NameRequired)
    else if |name| > MaxGroupNameLength then Some(NameTooLong)
    else None
  }

  /** sceneGroups.Exists(g => g.groupName == name): it holds exactly when Find would find a group. */
  function HasGroup(groups: Store, name: string): (b: bool)
    ensures b <==> FirstIndex(groups, (g: Group) => g.name == name).Some?
  {
    exists i :: 0 <= i < |groups| && groups[i].name == name
  }

  /** sceneGroups.Find(g => g.groupName == name), as a position. */
  function FindGroup(groups: Store, name: string): (r: Option<nat>)
    ensures r.Some? ==> r.value < |groups| && groups[r.value].name == name
    ensures r.Some? ==> forall j :: 0 <= j < r.value ==> groups[j].name != name
    ensures r.None? <==> !HasGroup(groups, name)
  {
    FirstIndex(groups, (g: Group) => g.name == name)
  }

  /** The first group whose scene list contains scene. */
  function FindHolder(groups: Store, scene: string): (r: Option<nat>)
    ensures r.Some? ==> r.value < |groups| && scene in groups[r.value].scenes
    ensures r.Some? ==> forall j :: 0 <= j < r.value ==> scene !in groups[j].scenes
    ensures r.None? <==> forall j :: 0 <= j < |groups| ==> scene !in groups[j].scenes
  {
    FirstIndex(groups, (g: Group) => scene in g.scenes)
  }

  /** Every group keeps its name. */
  predicate SameNames(a: Store, b: Store) {
    |a| == |b| && forall i :: 0 <= i < |a| ==> a[i].name == b[i].name
  }

  /**
   * AddNewGroupInternal: a valid name that no group has yet is appended as a
   * new empty group; anything else leaves the list as it was.
   */
  function AddNewGroup(groups: Store, name: string): (r: Store)
    ensures |groups| <= |r| <= |groups| + 1 && r[..|groups|] == groups
    ensures |r| == |groups| + 1 <==> ValidateName(name).None? && !HasGroup(groups, name)
    ensures |r| == |groups| + 1 ==> r[|groups|] == NewGroup(name)
  {
    if ValidateName(name).Some? then groups
    else if HasGroup(groups, name) then groups
    else groups + [NewGroup(name)]
  }

  /**
   * RenameGroupInternal: after the same name validation, the first group
   * named oldName takes the new name. Whether another group already has the
   * new name is not checked.
   */
  function RenameGroup(groups: Store, oldName: string, newName: string): (r: Store)
    ensures |r| == |groups|
    ensures forall i :: 0 <= i < |r| ==> r[i].scenes == groups[i].scenes
    ensures ValidateName(newName).Some? || !HasGroup(groups, oldName) ==> r == groups
    ensures ValidateName(newName).None? && FindGroup(groups, oldName).Some? ==>
      var i := FindGroup(groups, oldName).value;
      r[i].name == newName && forall j :: 0 <= j < |r| && j != i ==> r[j] == groups[j]
  {
    if ValidateName(newName).Some? then groups
    else
      match FindGroup(groups, oldName)
      case None => groups
      case Some(i) => groups[i := groups[i].(name := newName)]
  }

  /**
   * AddSceneToGroupInternal: appends scene to the first group named
   * groupName, unless there is no such group or it already holds the scene.
   * The scene is not taken out of any other group.
   */
  function AddSceneToGroup(groups: Store, scene: string, groupName: string): (r: Store)
    ensures SameNames(r, groups)
    ensures FindGroup(groups, groupName).None? ==> r == groups
    ensures FindGroup(groups, groupName).Some? ==>
      var i := FindGroup(groups, groupName).value;
      && scene in r[i].scenes
      && (scene in groups[i].scenes ==> r == groups)
      && (scene !in groups[i].scenes ==> r[i].scenes == groups[i].scenes + [scene])
      && forall j :: 0 <= j < |r| && j != i ==> r[j] == groups[j]
  {
    match FindGroup(groups, groupName)
    case None => groups
    case Some(i) => AppendScene(groups, i, scene)
  }

  /** Appends scene to the group at position i unless that group already lists it. */
  function AppendScene(groups: Store, i: nat, scene: string): (r: Store)
    requires i < |groups|
    ensures SameNames(r, groups)
    ensures scene in r[i].scenes
    ensures scene in groups[i].scenes ==> r == groups
    ensures scene !in groups[i].scenes ==> r[i].scenes == groups[i].scenes + [scene]
    ensures forall j :: 0 <= j < |r| && j != i ==> r[j] == groups[j]
  {
    if scene in groups[i].scenes then groups
    else groups[i := groups[i].(scenes := groups[i].scenes + [scene])]
  }

  /** The store after the first occurrence of scene is taken out of the first group holding it. */
  function TakeOut(groups: Store, scene: string): (r: Store)
    ensures SameNames(r, groups)
    ensures FindHolder(groups, scene).None? ==> r == groups
    ensures FindHolder(groups, scene).Some? ==>
      var h := FindHolder(groups, scene).value;
      && r[h].scenes == RemoveFirst(groups[h].scenes, scene)
      && forall j :: 0 <= j < |r| && j != h ==> r[j] == groups[j]
  {
    match FindHolder(groups, scene)
    case None => groups
    case Some(h) => DropScene(groups, h, scene)
  }

  /** List.Remove on the scene list of the group at position i: its first occurrence of scene goes. */
  function DropScene(groups: Store, i: nat, scene: string): (r: Store)
    requires i < |groups|
    ensures SameNames(r, groups)
    ensures r[i].scenes == RemoveFirst(groups[i].scenes, scene)
    ensures scene !in groups[i].scenes ==> r == groups
    ensures forall j :: 0 <= j < |r| && j != i ==> r[j] == groups[j]
  {
    if scene in groups[i].scenes then groups[i := groups[i].(scenes := RemoveFirst(groups[i].scenes, scene))]
    else groups
  }

  /**
   * MoveSceneToGroupInternal: when a group named targetName exists, the scene
   * is removed from the first group that holds it (possibly the target
   * itself) and then appended to the target unless the target still holds it.
   */
  function MoveSceneToGroup(groups: Store, scene: string, targetName: string): (r: Store)
    ensures SameNames(r, groups)
    ensures FindGroup(groups, targetName).None? ==> r == groups
    ensures FindGroup(groups, targetName).Some? ==> scene in r[FindGroup(groups, targetName).value].scenes
    ensures FindGroup(groups, targetName).Some? ==>
      var t := FindGroup(groups, targetName).value;
      var kept := if FindHolder(groups, scene) == Some(t) then RemoveFirst(groups[t].scenes, scene) else groups[t].scenes;
      r[t].scenes == kept + (if scene in kept then [] else [scene])
    ensures (FindGroup(groups, targetName).Some? && FindHolder(groups, scene).Some?
      && FindHolder(groups, scene) != FindGroup(groups, targetName)) ==>
      var h := FindHolder(groups, scene).value;
      r[h].scenes == RemoveFirst(groups[h].scenes, scene)
    ensures FindGroup(groups, targetName).Some? ==>
      forall j :: 0 <= j < |r| && j != FindGroup(groups, targetName).value && Some(j) != FindHolder(groups, scene) ==>
        r[j] == groups[j]
  {
    match FindGroup(groups, targetName)
    case None => groups
    case Some(t) => AppendScene(TakeOut(groups, scene), t, scene)
  }

  /**
   * RemoveGroupInternal: List.Remove on the group object being drawn, which
   * is identified here by its position. A position outside the list changes
   * nothing.
   */
  function RemoveGroup(groups: Store, i: int): (r: Store)
    ensures !(0 <= i < |groups|) ==> r == groups
    ensures 0 <= i < |groups| ==>
      && |r| == |groups| - 1
      && (forall j :: 0 <= j < i ==> r[j] == groups[j])
      && (forall j :: i <= j < |r| ==> r[j] == groups[j + 1])
    ensures 0 <= i < |groups| ==> multiset(r) == multiset(groups) - multiset{groups[i]}
  {
    if 0 <= i < |groups| then
      assert groups == groups[..i] + [groups[i]] + groups[i + 1..];
      groups[..i] + groups[i + 1..]
    else groups
  }

  /**
   * The "Remove" button next to a scene in a group: List.Remove takes the
   * first occurrence of the scene out of that group's list.
   */
  function RemoveSceneFromGroup(groups: Store, i: int, scene: string): (r: Store)
    ensures SameNames(r, groups)
    ensures !(0 <= i < |groups|) ==> r == groups
    ensures 0 <= i < |groups| ==>
      && r[i].scenes == RemoveFirst(groups[i].scenes, scene)
      && multiset(r[i].scenes) == multiset(groups[i].scenes) - multiset{scene}
      && (scene !in groups[i].scenes ==> r == groups)
      && forall j :: 0 <= j < |r| && j != i ==> r[j] == groups[j]
  {
    if 0 <= i < |groups| then DropScene(groups, i, scene)
    else groups
  }
}

=== FILE: group_store_properties.dfy ===
/**
 * Properties of the group store that relate several operations or hold
 * across a sequence of them: idempotence, round trips, and the invariants
 * (unique names, each scene in at most one place) that some operations keep.
 */
module GroupStoreProperties {
  import opened Wrappers
  import opened Lists
  import opened GroupStore

  /** How many times scene is listed, summed over all groups. */
  function Occurrences(groups: Store, scene: string): nat {
    if |groups| == 0 then 0
    else multiset(groups[0].scenes)[scene] + Occurrences(groups[1..], scene)
  }

  /** No scene is listed more than once anywhere in the store. */
  ghost predicate Partitioned(groups: Store) {
    forall s :: Occurrences(groups, s) <= 1
  }

  /** At most one group lists scene. */
  predicate InAtMostOneGroup(groups: Store, scene: string) {
    forall i, j :: 0 <= i < |groups| && 0 <= j < |groups| && scene in groups[i].scenes && scene in groups[j].scenes ==> i == j
  }

  /** No two groups share a name. */
  predicate UniqueNames(groups: Store) {
    forall i, j :: 0 <= i < |groups| && 0 <= j < |groups| && groups[i].name == groups[j].name ==> i == j
  }

  // ---------------------------------------------------------------------
  // Counting occurrences

  lemma {:induction false} OccurrencesUpdate(groups: Store, i: nat, g: Group, s: string)
    requires i < |groups|
    ensures Occurrences(groups[i := g], s) + multiset(groups[i].scenes)[s] == Occurrences(groups, s) + multiset(g.scenes)[s]
    decreases |groups|
  {
    if i == 0 {
      assert groups[i := g][1..] == groups[1..];
    } else {
      assert groups[i := g][1..] == groups[1..][i - 1 := g];
      OccurrencesUpdate(groups[1..], i - 1, g, s);
    }
  }

  lemma {:induction false} OccurrencesOfOneGroup(groups: Store, i: nat, s: string)
    requires i < |groups|
    ensures Occurrences(groups, s) >= multiset(groups[i].scenes)[s]
    decreases |groups|
  {
    if i > 0 {
      OccurrencesOfOneGroup(groups[1..], i - 1, s);
    }
  }

  lemma {:induction false} OccurrencesOfTwoGroups(groups: Store, i: nat, j: nat, s: string)
    requires i < j < |groups|
    ensures Occurrences(groups, s) >= multiset(groups[i].scenes)[s] + multiset(groups[j].scenes)[s]
    decreases |groups|
  {
    if i == 0 {
      OccurrencesOfOneGroup(groups[1..], j - 1, s);
    } else {
      OccurrencesOfTwoGroups(groups[1..], i - 1, j - 1, s);
    }
  }

  lemma {:induction false} OccurrencesAbsent(groups: Store, s: string)
    requires forall j :: 0 <= j < |groups| ==> s !in groups[j].scenes
    ensures Occurrences(groups, s) == 0
    decreases |groups|
  {
    if |groups| > 0 {
      OccurrencesAbsent(groups[1..], s);
    }
  }

  /** A partitioned store lists each scene in at most one group, and at most once there. */
  lemma PartitionedScenesInOneGroup(groups: Store, scene: string)
    requires Partitioned(groups)
    ensures InAtMostOneGroup(groups, scene)
    ensures forall i :: 0 <= i < |groups| ==> multiset(groups[i].scenes)[scene] <= 1
  {
    assert Occurrences(groups, scene) <= 1;
    forall i | 0 <= i < |groups| ensures multiset(groups[i].scenes)[scene] <= 1 {
      OccurrencesOfOneGroup(groups, i, scene);
    }
    forall i, j | 0 <= i < |groups| && 0 <= j < |groups| && scene in groups[i].scenes && scene in groups[j].scenes
      ensures i == j
    {
      if i < j {
        OccurrencesOfTwoGroups(groups, i, j, scene);
      } else if j < i {
        OccurrencesOfTwoGroups(groups, j, i, scene);
      }
    }
  }

  // ---------------------------------------------------------------------
  // Lookups depend on names only

  lemma FindGroupByNamesOnly(a: Store, b: Store, name: string)
    requires SameNames(a, b)
    ensures FindGroup(a, name) == FindGroup(b, name)
  {
    var fa, fb := FindGroup(a, name), FindGroup(b, name);
    if fa.Some? {
      assert b[fa.value].name == name;
    }
    if fb.Some? {
      assert a[fb.value].name == name;
    }
  }

  // ---------------------------------------------------------------------
  // Adding and removing groups

  /** Adding the same group a second time changes nothing. */
  lemma AddNewGroupIdempotent(groups: Store, name: string)
    ensures AddNewGroup(AddNewGroup(groups, name), name) == AddNewGroup(groups, name)
  {
    var once := AddNewGroup(groups, name);
    if |once| == |groups| + 1 {
      assert once[|groups|].name == name;
    }
  }

  /** After a valid add the name can be looked up, and a new group is found at the end. */
  lemma AddedGroupIsFound(groups: Store, name: string)
    requires ValidateName(name).None?
    ensures FindGroup(AddNewGroup(groups, name), name).Some?
    ensures !HasGroup(groups, name) ==> FindGroup(AddNewGroup(groups, name), name) == Some(|groups|)
  {
    var r := AddNewGroup(groups, name);
    if !HasGroup(groups, name) {
      assert r[|groups|].name == name;
      assert forall j :: 0 <= j < |groups| ==> r[j].name != name by {
        assert r[..|groups|] == groups;
        forall j | 0 <= j < |groups| ensures r[j].name != name {
          assert r[j] == r[..|groups|][j];
        }
      }
    } else {
      var i :| 0 <= i < |groups| && groups[i].name == name;
      assert r[i] == r[..|groups|][i];
    }
  }

  /** Adding a group keeps group names unique. */
  lemma {:induction false} AddNewGroupKeepsNamesUnique(groups: Store, name: string)
    requires UniqueNames(groups)
    ensures UniqueNames(AddNewGroup(groups, name))
  {
    var r := AddNewGroup(groups, name);
    forall i | 0 <= i < |groups| ensures r[i] == groups[i] {
      assert r[i] == r[..|groups|][i];
    }
    if |r| == |groups| + 1 {
      assert forall j :: 0 <= j < |groups| ==> groups[j].name != name;
    }
  }

  /** Removing a group that was just added gives back the old list. */
  lemma RemoveAddedGroup(groups: Store, name: string)
    requires ValidateName(name).None? && !HasGroup(groups, name)
    ensures RemoveGroup(AddNewGroup(groups, name), |groups|) == groups
  {
    var r := RemoveGroup(AddNewGroup(groups, name), |groups|);
    assert AddNewGroup(groups, name)[..|groups|] == groups;
    assert forall j :: 0 <= j < |groups| ==> r[j] == groups[j];
  }

  /** Removing a group keeps the other names unique. */
  lemma RemoveGroupKeepsNamesUnique(groups: Store, i: int)
    requires UniqueNames(groups)
    ensures UniqueNames(RemoveGroup(groups, i))
  {
    var r := RemoveGroup(groups, i);
    if 0 <= i < |groups| {
      forall a, b | 0 <= a < |r| && 0 <= b < |r| && r[a].name == r[b].name ensures a == b {
        var a' := if a < i then a else a + 1;
        var b' := if b < i then b else b + 1;
        assert groups[a'].name == groups[b'].name;
      }
    }
  }

  /** Removing a group removes its scenes from the count and leaves every other count alone. */
  lemma {:induction false} RemoveGroupOccurrences(groups: Store, i: nat, s: string)
    requires i < |groups|
    ensures Occurrences(RemoveGroup(groups, i), s) + multiset(groups[i].scenes)[s] == Occurrences(groups, s)
    decreases |groups|
  {
    var r := RemoveGroup(groups, i);
    if i == 0 {
      assert r == groups[1..];
    } else {
      assert r[0] == groups[0];
      assert r[1..] == RemoveGroup(groups[1..], i - 1);
      RemoveGroupOccurrences(groups[1..], i - 1, s);
    }
  }

  /** Removing a group keeps the store partitioned. */
  lemma RemoveGroupKeepsPartition(groups: Store, i: int)
    requires Partitioned(groups)
    ensures Partitioned(RemoveGroup(groups, i))
  {
    if 0 <= i < |groups| {
      forall s ensures Occurrences(RemoveGroup(groups, i), s) <= 1 {
        RemoveGroupOccurrences(groups, i, s);
      }
    }
  }

  // ---------------------------------------------------------------------
  // Renaming

  /** Renaming a group away and back again restores the list, when the new name was free. */
  lemma RenameRoundTrip(groups: Store, oldName: string, newName: string)
    requires ValidateName(oldName).None? && ValidateName(newName).None?
    requires HasGroup(groups, oldName) && !HasGroup(groups, newName)
    ensures RenameGroup(RenameGroup(groups, oldName, newName), newName, oldName) == groups
  {
    var i := FindGroup(groups, oldName).value;
    var r := RenameGroup(groups, oldName, newName);
    assert r[i].name == newName;
    assert forall j :: 0 <= j < |r| && j != i ==> r[j].name != newName;
    assert FindGroup(r, newName) == Some(i);
    var back := RenameGroup(r, newName, oldName);
    assert back[i] == groups[i];
    assert forall j :: 0 <= j < |back| ==> back[j] == groups[j];
  }

  /** Renaming to a name no other group has keeps names unique. */
  lemma RenameKeepsNamesUnique(groups: Store, oldName: string, newName: string)
    requires UniqueNames(groups) && !HasGroup(groups, newName)
    ensures UniqueNames(RenameGroup(groups, oldName, newName))
  {
  }

  /** The rename does not check for a clash: two groups can end up with the same name. */
  lemma RenameCanDuplicateNames()
    ensures UniqueNames([Group("A", []), Group("B", [])])
    ensures !UniqueNames(RenameGroup([Group("A", []), Group("B", [])], "B", "A"))
  {
    var g := [Group("A", []), Group("B", [])];
    assert FindGroup(g, "B") == Some(1);
    var r := RenameGroup(g, "B", "A");
    assert r[0].name == r[1].name;
  }

  // ---------------------------------------------------------------------
  // Adding and removing scenes

  /** Adding a scene to a group twice is the same as adding it once. */
  lemma AddSceneToGroupIdempotent(groups: Store, scene: string, groupName: string)
    ensures AddSceneToGroup(AddSceneToGroup(groups, scene, groupName), scene, groupName)
         == AddSceneToGroup(groups, scene, groupName)
  {
    var once := AddSceneToGroup(groups, scene, groupName);
    FindGroupByNamesOnly(once, groups, groupName);
  }

  /** Removing a scene right after adding it restores the group. */
  lemma RemoveAddedScene(groups: Store, scene: string, groupName: string)
    requires FindGroup(groups, groupName).Some?
    requires scene !in groups[FindGroup(groups, groupName).value].scenes
    ensures RemoveSceneFromGroup(AddSceneToGroup(groups, scene, groupName), FindGroup(groups, groupName).value, scene) == groups
  {
    var i := FindGroup(groups, groupName).value;
    var added := AddSceneToGroup(groups, scene, groupName);
    var xs := groups[i].scenes;
    assert added[i].scenes == xs + [scene];
    RemoveFirstOfAppended(xs, scene);
    var r := RemoveSceneFromGroup(added, i, scene);
    assert forall j :: 0 <= j < |r| ==> r[j] == groups[j];
  }

  /** Adding a scene that is listed nowhere yet keeps the store partitioned. */
  lemma AddSceneKeepsPartition(groups: Store, scene: string, groupName: string)
    requires Partitioned(groups) && Occurrences(groups, scene) == 0
    ensures Partitioned(AddSceneToGroup(groups, scene, groupName))
  {
    var r := AddSceneToGroup(groups, scene, groupName);
    if FindGroup(groups, groupName).Some? && r != groups {
      var i := FindGroup(groups, groupName).value;
      assert r == groups[i := r[i]];
      forall s ensures Occurrences(r, s) <= 1 {
        OccurrencesUpdate(groups, i, r[i], s);
        assert multiset(r[i].scenes) == multiset(groups[i].scenes) + multiset{scene};
      }
    }
  }

  /** AddSceneToGroup does not take the scene out of its old group. */
  lemma AddSceneCanListSceneTwice()
    ensures Partitioned([Group("A", ["s"]), Group("B", [])])
    ensures !InAtMostOneGroup(AddSceneToGroup([Group("A", ["s"]), Group("B", [])], "s", "B"), "s")
  {
    var g := [Group("A", ["s"]), Group("B", [])];
    forall x ensures Occurrences(g, x) <= 1 {
      assert Occurrences(g, x) == multiset(["s"])[x] + Occurrences(g[1..], x);
      assert Occurrences(g[1..], x) == multiset(g[1].scenes)[x] + Occurrences(g[2..], x);
    }
    assert FindGroup(g, "B") == Some(1);
    var r := AddSceneToGroup(g, "s", "B");
    assert "s" in r[0].scenes && "s" in r[1].scenes;
  }

  // ---------------------------------------------------------------------
  // Moving scenes

  /** TakeOut lowers the count of the scene by one when some group lists it. */
  lemma TakeOutOccurrences(groups: Store, scene: string, s: string)
    ensures s != scene ==> Occurrences(TakeOut(groups, scene), s) == Occurrences(groups, s)
    ensures FindHolder(groups, scene).Some? ==> Occurrences(TakeOut(groups, scene), scene) + 1 == Occurrences(groups, scene)
    ensures FindHolder(groups, scene).None? ==> Occurrences(groups, scene) == 0
  {
    var holder := FindHolder(groups, scene);
    if holder.None? {
      OccurrencesAbsent(groups, scene);
    } else {
      var h := holder.value;
      var r := TakeOut(groups, scene);
      var before, after := groups[h].scenes, r[h].scenes;
      assert r == groups[h := r[h]];
      OccurrencesUpdate(groups, h, r[h], s);
      OccurrencesUpdate(groups, h, r[h], scene);
      assert after == RemoveFirst(before, scene);
      assert multiset(after) == multiset(before) - multiset{scene};
      assert multiset(before)[scene] >= 1;
      assert multiset(after)[scene] + 1 == multiset(before)[scene];
      assert s != scene ==> multiset(after)[s] == multiset(before)[s];
    }
  }

  /**
   * Moving leaves every other scene's count alone and, when the scene was
   * listed at most once and the target exists, leaves it listed exactly once.
   */
  lemma MoveOccurrences(groups: Store, scene: string, targetName: string, s: string)
    ensures s != scene ==> Occurrences(MoveSceneToGroup(groups, scene, targetName), s) == Occurrences(groups, s)
    ensures FindGroup(groups, targetName).Some? && Occurrences(groups, scene) <= 1 ==>
      Occurrences(MoveSceneToGroup(groups, scene, targetName), scene) == 1
  {
    match FindGroup(groups, targetName)
    case None =>
    case Some(t) =>
      var removed := TakeOut(groups, scene);
      TakeOutOccurrences(groups, scene, s);
      TakeOutOccurrences(groups, scene, scene);
      AppendOccurrences(removed, t, scene, s);
      AppendOccurrences(removed, t, scene, scene);
  }

  /** Appending a scene to one group adds one occurrence of it exactly when that group lacked it. */
  lemma AppendOccurrences(groups: Store, t: nat, scene: string, s: string)
    requires t < |groups|
    ensures Occurrences(AppendScene(groups, t, scene), s)
         == Occurrences(groups, s) + (if s == scene && scene !in groups[t].scenes then 1 else 0)
    ensures scene in groups[t].scenes ==> Occurrences(groups, scene) >= 1
  {
    var r := AppendScene(groups, t, scene);
    if scene in groups[t].scenes {
      OccurrencesOfOneGroup(groups, t, scene);
    } else {
      assert r == groups[t := r[t]];
      assert multiset(r[t].scenes) == multiset(groups[t].scenes) + multiset{scene};
      OccurrencesUpdate(groups, t, r[t], s);
    }
  }

  /** A move keeps the store partitioned. */
  lemma MoveKeepsPartition(groups: Store, scene: string, targetName: string)
    requires Partitioned(groups)
    ensures Partitioned(MoveSceneToGroup(groups, scene, targetName))
  {
    forall s ensures Occurrences(MoveSceneToGroup(groups, scene, targetName), s) <= 1 {
      MoveOccurrences(groups, scene, targetName, s);
      MoveOccurrences(groups, scene, targetName, scene);
    }
  }

  /** A move into an existing group leaves the scene in exactly that group. */
  lemma MovedSceneInTargetOnly(groups: Store, scene: string, targetName: string)
    requires Partitioned(groups) && FindGroup(groups, targetName).Some?
    ensures var r := MoveSceneToGroup(groups, scene, targetName);
      forall j :: 0 <= j < |r| ==> (scene in r[j].scenes <==> j == FindGroup(groups, targetName).value)
  {
    MoveKeepsPartition(groups, scene, targetName);
    PartitionedScenesInOneGroup(MoveSceneToGroup(groups, scene, targetName), scene);
  }

  /**
   * Moving a scene into the group that already holds it (and lists it once,
   * first among all groups) takes it out and appends it at the end.
   */
  lemma MoveIntoOwnGroupReappends(groups: Store, scene: string, targetName: string)
    requires FindGroup(groups, targetName).Some?
    requires FindHolder(groups, scene) == FindGroup(groups, targetName)
    requires multiset(groups[FindGroup(groups, targetName).value].scenes)[scene] == 1
    ensures var t := FindGroup(groups, targetName).value;
      MoveSceneToGroup(groups, scene, targetName)[t].scenes == RemoveFirst(groups[t].scenes, scene) + [scene]
  {
    var t := FindGroup(groups, targetName).value;
    var removed := TakeOut(groups, scene);
    assert multiset(removed[t].scenes)[scene] == 0;
  }

  /** One move request: a scene and the name of the target group. */
  datatype Move = Move(scene: string, target: string)

  /** Applies moves in order. */
  function MoveAll(groups: Store, moves: seq<Move>): Store
    decreases |moves|
  {
    if |moves| == 0 then groups
    else MoveAll(MoveSceneToGroup(groups, moves[0].scene, moves[0].target), moves[1..])
  }

  /** After any sequence of moves on a partitioned store, every scene is in at most one group. */
  lemma {:induction false} MovesKeepScenesInOneGroup(groups: Store, moves: seq<Move>)
    requires Partitioned(groups)
    ensures Partitioned(MoveAll(groups, moves))
    ensures forall s :: InAtMostOneGroup(MoveAll(groups, moves), s)
    decreases |moves|
  {
    if |moves| == 0 {
    } else {
      MoveKeepsPartition(groups, moves[0].scene, moves[0].target);
      MovesKeepScenesInOneGroup(MoveSceneToGroup(groups, moves[0].scene, moves[0].target), moves[1..]);
    }
    forall s ensures InAtMostOneGroup(MoveAll(groups, moves), s) {
      PartitionedScenesInOneGroup(MoveAll(groups, moves), s);
    }
  }

  /** Adding, moving and removing scenes never changes any group name. */
  lemma SceneOperationsKeepNamesUnique(groups: Store, scene: string, name: string, i: int)
    requires UniqueNames(groups)
    ensures UniqueNames(AddSceneToGroup(groups, scene, name))
    ensures UniqueNames(MoveSceneToGroup(groups, scene, name))
    ensures UniqueNames(RemoveSceneFromGroup(groups, i, scene))
  {
    SameNamesKeepUnique(AddSceneToGroup(groups, scene, name), groups);
    SameNamesKeepUnique(MoveSceneToGroup(groups, scene, name), groups);
    SameNamesKeepUnique(RemoveSceneFromGroup(groups, i, scene), groups);
  }

  lemma SameNamesKeepUnique(a: Store, b: Store)
    requires SameNames(a, b) && UniqueNames(b)
    ensures UniqueNames(a)
  {
    forall i, j | 0 <= i < |a| && 0 <= j < |a| && a[i].name == a[j].name ensures i == j {
      assert b[i].name == b[j].name;
    }
  }

  /**
   * A fresh SceneGroupData holds no groups; the first valid group added to it
   * is a fresh SceneGroup with that name and no scenes.
   */
  lemma FirstGroupOfFreshStore(name: string)
    requires ValidateName(name).None?
    ensures |EmptyStore| == 0
    ensures AddNewGroup(EmptyStore, name) == [Group(name, [])]
  {
  }

  /**
   * The walk-through: add Level1, put a.unity into it, add Level2, move the
   * scene there. Level1 ends up empty and Level2 holds the scene.
   */
  lemma AddAndMoveScenario()
    ensures
      var s1 := AddNewGroup(EmptyStore, "Level1");
      var s2 := AddSceneToGroup(s1, "Assets/a.unity", "Level1");
      var s3 := AddNewGroup(s2, "Level2");
      MoveSceneToGroup(s3, "Assets/a.unity", "Level2") == [Group("Level1", []), Group("Level2", ["Assets/a.unity"])]
  {
    var s1 := AddNewGroup(EmptyStore, "Level1");
    assert s1 == [Group("Level1", [])];
    assert FindGroup(s1, "Level1") == Some(0);
    var s2 := AddSceneToGroup(s1, "Assets/a.unity", "Level1");
    assert s2[0].scenes == [] + ["Assets/a.unity"];
    assert s2[0].name == "Level1";
    assert |s2| == 1;
    assert s2[0] == Group("Level1", ["Assets/a.unity"]);
    assert s2 == [Group("Level1", ["Assets/a.unity"])];
    assert !HasGroup(s2, "Level2");
    var s3 := AddNewGroup(s2, "Level2");
    assert s3 == [Group("Level1", ["Assets/a.unity"]), Group("Level2", [])];
    assert FindGroup(s3, "Level2") == Some(1);
    assert FindHolder(s3, "Assets/a.unity") == Some(0);
    var removed := TakeOut(s3, "Assets/a.unity");
    assert RemoveFirst(["Assets/a.unity"], "Assets/a.unity") == [];
    assert removed == [Group("Level1", []), Group("Level2", [])];
    assert AppendScene(removed, 1, "Assets/a.unity")[1].scenes == [] + ["Assets/a.unity"];
  }
}

=== FILE: legacy_store.dfy ===
/**
 * The group store of the older window: a dictionary from group name to the
 * scene paths of that group. Keys are unique by construction; only the
 * empty name is refused.
 */
module LegacyStore {
  import opened Lists
  import GroupStore

  type Groups = map<string, seq<string>>

  /** The store together with the "New Group Name" text field. */
  datatype AddGroupForm = AddGroupForm(groups: Groups, newGroupName: string)

  /**
   * The "Add Group" button: an empty name is refused with a dialog; a name
   * already used leaves the store and the field alone; a new name gets an
   * empty scene list and the field is cleared.
   */
  function AddGroup(groups: Groups, newGroupName: string): (r: AddGroupForm)
    ensures forall k :: k in groups ==> k in r.groups && r.groups[k] == groups[k]
    ensures r.groups.Keys == groups.Keys + (if newGroupName == "" then {} else {newGroupName})
    ensures newGroupName != "" && newGroupName !in groups ==> r.groups[newGroupName] == []
    ensures r.newGroupName == "" <==> newGroupName == "" || newGroupName !in groups
    ensures r.newGroupName != "" ==> r.newGroupName == newGroupName
  {
    if newGroupName == "" then AddGroupForm(groups, newGroupName)
    else if newGroupName !in groups then AddGroupForm(groups[newGroupName := []], "")
    else AddGroupForm(groups, newGroupName)
  }

  /**
   * AddSceneToGroup: appends the scene to the named group when the key exists
   * and the list does not hold the scene yet; otherwise nothing changes.
   */
  function AddSceneToGroup(groups: Groups, scene: string, group: string): (r: Groups)
    ensures r.Keys == groups.Keys
    ensures forall k :: k in groups && k != group ==> r[k] == groups[k]
    ensures group !in groups || scene in groups[group] ==> r == groups
    ensures group in groups && scene !in groups[group] ==> r[group] == groups[group] + [scene]
    ensures group in groups ==> scene in r[group]
  {
    if group in groups && scene !in groups[group] then groups[group := groups[group] + [scene]]
    else groups
  }

  /** The "Remove" button next to a scene: the first occurrence leaves that group's list. */
  function RemoveScene(groups: Groups, group: string, scene: string): (r: Groups)
    ensures r.Keys == groups.Keys
    ensures forall k :: k in groups && k != group ==> r[k] == groups[k]
    ensures group in groups ==> r[group] == RemoveFirst(groups[group], scene)
    ensures group in groups ==> multiset(r[group]) == multiset(groups[group]) - multiset{scene}
    ensures group in groups && scene !in groups[group] ==> r == groups
  {
    if group in groups then groups[group := RemoveFirst(groups[group], scene)]
    else groups
  }

  /** The confirmed "Remove Group" button: the key and its scenes go; nothing else changes. */
  function RemoveGroup(groups: Groups, group: string): (r: Groups)
    ensures r.Keys == groups.Keys - {group}
    ensures forall k :: k in r ==> r[k] == groups[k]
  {
    groups - {group}
  }

  /** Adding a scene twice is the same as adding it once. */
  lemma AddSceneToGroupIdempotent(groups: Groups, scene: string, group: string)
    ensures AddSceneToGroup(AddSceneToGroup(groups, scene, group), scene, group) == AddSceneToGroup(groups, scene, group)
  {
  }

  /** Pressing "Add Group" twice with the same text leaves the store as after the first press. */
  lemma AddGroupIdempotent(groups: Groups, name: string)
    ensures AddGroup(AddGroup(groups, name).groups, name).groups == AddGroup(groups, name).groups
  {
  }

  /** Removing a group that was just added gives the old store back. */
  lemma RemoveAddedGroup(groups: Groups, name: string)
    requires name !in groups
    ensures RemoveGroup(AddGroup(groups, name).groups, name) == groups
  {
  }

  /** Removing a scene right after adding it gives the old store back. */
  lemma {:induction false} RemoveAddedScene(groups: Groups, scene: string, group: string)
    requires group in groups && scene !in groups[group]
    ensures RemoveScene(AddSceneToGroup(groups, scene, group), group, scene) == groups
  {
    var xs := groups[group];
    RemoveFirstOfAppended(xs, scene);
    assert RemoveScene(AddSceneToGroup(groups, scene, group), group, scene) == groups[group := xs];
  }

  /**
   * The older window has no length limit: a 51-character name is added here
   * but refused by the current window.
   */
  lemma LongNameAcceptedOnlyByOlderWindow(groups: Groups, name: string)
    requires |name| == GroupStore.MaxGroupNameLength + 1 && name !in groups
    ensures name in AddGroup(groups, name).groups
    ensures GroupStore.AddNewGroup([], name) == []
  {
  }
}

=== FILE: lists.dfy ===
/** Sequence helpers that mirror the .NET List<T> operations the windows rely on. */
module Lists {
  import opened Wrappers

  /** The set of elements of a sequence. */
  function Elements<T>(s: seq<T>): set<T> {
    set x | x in s
  }

  /**
   * List.Remove(x): deletes the first occurrence of x, if there is one, and
   * keeps everything else in order.
   */
  function RemoveFirst<T(==)>(s: seq<T>, x: T): (r: seq<T>)
    ensures x !in s ==> r == s
    ensures x in s ==> exists i :: 0 <= i < |s| && s[i] == x && x !in s[..i] && r == s[..i] + s[i + 1..]
    ensures multiset(r) == multiset(s) - multiset{x}
  {
    match FirstIndex(s, y => y == x)
    case None => s
    case Some(i) =>
      assert s == s[..i] + [x] + s[i + 1..];
      assert x !in s[..i];
      s[..i] + s[i + 1..]
  }

  /** Removing an element that was just appended (and was absent before) undoes the append. */
  lemma RemoveFirstOfAppended<T>(xs: seq<T>, x: T)
    requires x !in xs
    ensures RemoveFirst(xs + [x], x) == xs
  {
    var ys := xs + [x];
    assert ys[..|xs|] == xs;
    var k :| 0 <= k < |ys| && ys[k] == x && x !in ys[..k] && RemoveFirst(ys, x) == ys[..k] + ys[k + 1..];
    assert k == |xs|;
  }

  /** List.Find / List.FindIndex: the position of the first element satisfying p. */
  function FirstIndex<T>(s: seq<T>, p: T -> bool): (r: Option<nat>)
    ensures r.Some? ==> r.value < |s| && p(s[r.value])
    ensures r.Some? ==> forall j :: 0 <= j < r.value ==> !p(s[j])
    ensures r.None? <==> forall j :: 0 <= j < |s| ==> !p(s[j])
  {
    if |s| == 0 then None
    else if p(s[0]) then Some(0)
    else
      match FirstIndex(s[1..], p)
      case None => None
      case Some(i) => Some(i + 1)
  }
}

=== FILE: paths.dfy ===
/**
 * The parts of System.IO.Path the windows use: the file-name part of a path,
 * the file name without its extension, and joining a directory with a name.
 * Paths follow the Windows editor: '/' and '\' separate directories, the
 * volume separator ':' ends a drive name, and Path.Combine inserts '\'.
 */
module Paths {

  const DirectorySeparator: char := '\\'

  /** The characters Path.GetFileName and Path.Combine treat as ending a directory part. */
  predicate IsSeparator(c: char) {
    c == '/' || c == '\\' || c == ':'
  }

  predicate NoSeparator(s: string) {
    forall i :: 0 <= i < |s| ==> !IsSeparator(s[i])
  }

  /** Path.GetFileName: everything after the last directory separator. */
  function FileName(path: string): (r: string)
    ensures |r| <= |path| && r == path[|path| - |r|..]
    ensures NoSeparator(r)
    ensures |r| < |path| ==> IsSeparator(path[|path| - |r| - 1])
  {
    if |path| == 0 then ""
    else if IsSeparator(path[|path| - 1]) then ""
    else
      FileNameStep(path, FileName(path[..|path| - 1]));
      FileName(path[..|path| - 1]) + [path[|path| - 1]]
  }

  /** The file name of a path without its last character, extended by that character, is a file name of the path. */
  lemma FileNameStep(path: string, f: string)
    requires |path| > 0 && !IsSeparator(path[|path| - 1])
    requires |f| <= |path| - 1 && f == path[..|path| - 1][|path| - 1 - |f|..]
    requires NoSeparator(f)
    requires |f| < |path| - 1 ==> IsSeparator(path[|path| - 2 - |f|])
    ensures |f| + 1 <= |path| && f + [path[|path| - 1]] == path[|path| - 1 - |f|..]
    ensures NoSeparator(f + [path[|path| - 1]])
  {
    var r := f + [path[|path| - 1]];
    assert path[|path| - 1 - |f|..] == path[..|path| - 1][|path| - 1 - |f|..] + [path[|path| - 1]];
    forall i | 0 <= i < |r| ensures !IsSeparator(r[i]) {
      if i < |f| {
        assert r[i] == f[i];
      }
    }
  }

  /** Drops the extension: everything from the last '.' on, if the name has a '.'. */
  function WithoutExtension(name: string): (r: string)
    ensures |r| <= |name| && r == name[..|r|]
    ensures '.' !in name ==> r == name
    ensures '.' in name ==> |r| < |name| && name[|r|] == '.' && '.' !in name[|r| + 1..]
  {
    if |name| == 0 then ""
    else if name[|name| - 1] == '.' then name[..|name| - 1]
    else
      var r := WithoutExtension(name[..|name| - 1]);
      assert name == name[..|name| - 1] + [name[|name| - 1]];
      if '.' in name[..|name| - 1] then
        assert name[|r| + 1..] == name[..|name| - 1][|r| + 1..] + [name[|name| - 1]];
        r
      else
        name
  }

  /** Path.GetFileNameWithoutExtension: the base name shown for a scene. */
  function FileNameWithoutExtension(path: string): string {
    WithoutExtension(FileName(path))
  }

  /** What Path.Combine puts in front of a relative name that is joined onto dir. */
  function DirectoryPrefix(dir: string): (p: string)
    ensures p == "" || IsSeparator(p[|p| - 1])
    ensures p == dir || p == dir + [DirectorySeparator]
    ensures p == "" <==> dir == ""
    ensures p == dir <==> dir == "" || IsSeparator(dir[|dir| - 1])
  {
    if dir == "" then ""
    else if IsSeparator(dir[|dir| - 1]) then dir
    else dir + [DirectorySeparator]
  }

  /**
   * Path.Combine(dir, name) for a name that is not rooted: an empty name
   * gives dir unchanged; otherwise dir, then one separator unless dir is
   * empty or already ends in one, then name.
   */
  function Combine(dir: string, name: string): (r: string)
    ensures dir == "" ==> r == name
    ensures name == "" ==> r == dir
    ensures |r| == |dir| + |name| || (|r| == |dir| + 1 + |name| && r[|dir|] == DirectorySeparator)
    ensures r[..|dir|] == dir && r[|r| - |name|..] == name
    ensures dir != "" && name != "" ==> IsSeparator(r[|r| - |name| - 1])
    ensures name != "" && NoSeparator(name) ==> FileName(r) == name
  {
    if name == "" then dir
    else
      assert NoSeparator(name) ==> FileName(DirectoryPrefix(dir) + name) == name by {
        if NoSeparator(name) {
          FileNameAfterSeparator(DirectoryPrefix(dir), name);
        }
      }
      DirectoryPrefix(dir) + name
  }

  lemma {:induction false} FileNameAfterSeparator(p: string, name: string)
    requires p == "" || IsSeparator(p[|p| - 1])
    requires NoSeparator(name)
    ensures FileName(p + name) == name
    decreases |name|
  {
    if |name| == 0 {
      assert p + name == p;
    } else {
      var q := p + name;
      var last := |name| - 1;
      assert q[|q| - 1] == name[last];
      assert q[..|q| - 1] == p + name[..last];
      assert NoSeparator(name[..last]);
      FileNameAfterSeparator(p, name[..last]);
      FileNameOfLast(q);
      assert name == name[..last] + [name[last]];
    }
  }

  /** A path that does not end in a separator keeps its last character in its file name. */
  lemma FileNameOfLast(q: string)
    requires |q| > 0 && !IsSeparator(q[|q| - 1])
    ensures FileName(q) == FileName(q[..|q| - 1]) + [q[|q| - 1]]
  {
  }
}

=== FILE: persistence.dfy ===
/**
 * Saving the group store with its optional backup, and loading it with the
 * fallback chain: the live asset, else the newest backup, else a new empty
 * store. The file system is abstracted to the data the decisions depend on:
 * whether the live asset loads, and which backup files exist with what
 * content. The clock is a parameter.
 */
module Persistence {
  import opened Wrappers
  import opened GroupStore
  import opened Backups

  /** The backup directory: each backup file by its timestamp, with its content, or None when it does not load. */
  type BackupFiles = map<Timestamp, Option<Store>>

  /**
   * SaveGroups: when backups are enabled and a directory is set, the saved
   * store is copied to the file for now (replacing a file of the same
   * second) and the directory is pruned to the three newest files.
   */
  function SaveGroups(groups: Store, enableBackup: bool, backupDirectory: string, files: BackupFiles, now: Timestamp): (r: BackupFiles)
    ensures !enableBackup || backupDirectory == "" ==> r == files
    ensures enableBackup && backupDirectory != "" ==>
      && r.Keys == Backup(files.Keys, now)
      && (now in r ==> r[now] == Some(groups))
      && forall t :: t in r && t != now ==> r[t] == files[t]
  {
    if enableBackup && backupDirectory != "" then
      var kept := Backup(files.Keys, now);
      CopyThenRestrict(groups, files, now, kept);
      Restrict(files[now := Some(groups)], kept)
    else
      files
  }

  /** Which files a save leaves, and with what content, once it is known which timestamps survive. */
  lemma CopyThenRestrict(groups: Store, files: BackupFiles, now: Timestamp, kept: set<Timestamp>)
    requires kept <= files.Keys + {now}
    ensures var copied := files[now := Some(groups)];
      && kept <= copied.Keys
      && var r := Restrict(copied, kept);
      && r.Keys == kept
      && (now in r ==> r[now] == Some(groups))
      && forall t :: t in r && t != now ==> r[t] == files[t]
  {
    assert files[now := Some(groups)].Keys == files.Keys + {now};
  }

  /** The part of a map whose keys lie in keys: the files that survive a pruning. */
  function Restrict<K, V>(m: map<K, V>, keys: set<K>): (r: map<K, V>)
    requires keys <= m.Keys
    ensures r.Keys == keys
    ensures forall k :: k in keys ==> r[k] == m[k]
  {
    map k | k in keys :: m[k]
  }

  /** Where the loaded store came from. */
  datatype Origin = LiveAsset | RestoredBackup(stamp: Timestamp) | CreatedEmpty

  datatype Loaded = Loaded(groups: Store, origin: Origin)

  /**
   * LoadGroups: the live asset when it loads; otherwise, with backups enabled
   * and an existing, non-empty backup directory, the newest backup when it
   * loads; otherwise a fresh empty store.
   */
  function LoadGroups(live: Option<Store>, enableBackup: bool, backupDirectory: string, directoryExists: bool, files: BackupFiles): (r: Loaded)
    ensures live.Some? ==> r == Loaded(live.value, LiveAsset)
    ensures r.origin.CreatedEmpty? ==> r.groups == EmptyStore
    ensures r.origin.RestoredBackup? ==>
      && live.None? && enableBackup && backupDirectory != "" && directoryExists
      && r.origin.stamp in files
      && (forall t :: t in files ==> t <= r.origin.stamp)
      && files[r.origin.stamp] == Some(r.groups)
    ensures live.None? && enableBackup && backupDirectory != "" && directoryExists && files != map[] ==>
      (r.origin.RestoredBackup? <==> files[Latest(files.Keys)].Some?)
    ensures live.None? && !r.origin.RestoredBackup? ==> r == Loaded(EmptyStore, CreatedEmpty)
    ensures live.None? && (!enableBackup || backupDirectory == "" || !directoryExists || files == map[]) ==>
      r == Loaded(EmptyStore, CreatedEmpty)
  {
    if live.Some? then Loaded(live.value, LiveAsset)
    else if enableBackup && backupDirectory != "" && directoryExists && files != map[] then
      assert files.Keys != {} by {
        var t :| t in files;
      }
      var latest := Latest(files.Keys);
      match files[latest]
      case Some(restored) => Loaded(restored, RestoredBackup(latest))
      case None => Loaded(EmptyStore, CreatedEmpty)
    else
      Loaded(EmptyStore, CreatedEmpty)
  }

  /**
   * Saving with backups on, then losing the live asset, then loading brings
   * back exactly the saved store, from the backup just written (when the
   * clock has not gone back).
   */
  lemma RestoreAfterLoss(groups: Store, backupDirectory: string, files: BackupFiles, now: Timestamp)
    requires backupDirectory != ""
    requires forall t :: t in files ==> t <= now
    ensures LoadGroups(None, true, backupDirectory, true, SaveGroups(groups, true, backupDirectory, files, now))
         == Loaded(groups, RestoredBackup(now))
  {
    var saved := SaveGroups(groups, true, backupDirectory, files, now);
    SavedIsNewest(groups, backupDirectory, files, now);
    LoadNewest(saved, backupDirectory, now, groups);
  }

  /** Without a live asset, a directory whose newest file holds a store loads that store. */
  lemma LoadNewest(files: BackupFiles, backupDirectory: string, t: Timestamp, groups: Store)
    requires backupDirectory != ""
    requires t in files && files[t] == Some(groups)
    requires forall u :: u in files ==> u <= t
    ensures LoadGroups(None, true, backupDirectory, true, files) == Loaded(groups, RestoredBackup(t))
  {
    LatestIs(files.Keys, t);
  }

  /** A save with backups on, at a time no earlier than any file, leaves its own file as the newest. */
  lemma SavedIsNewest(groups: Store, backupDirectory: string, files: BackupFiles, now: Timestamp)
    requires backupDirectory != ""
    requires forall t :: t in files ==> t <= now
    ensures var saved := SaveGroups(groups, true, backupDirectory, files, now);
      && now in saved && saved[now] == Some(groups)
      && forall t :: t in saved ==> t <= now
  {
    BackupKeepsNewest(files.Keys, now);
  }

  /** Two saves in the same second leave one backup file for that second, holding the later store. */
  lemma SameSecondOverwrites(first: Store, second: Store, backupDirectory: string, files: BackupFiles, now: Timestamp)
    requires backupDirectory != ""
    requires forall t :: t in files ==> t <= now
    ensures var once := SaveGroups(first, true, backupDirectory, files, now);
      var twice := SaveGroups(second, true, backupDirectory, once, now);
      twice.Keys == once.Keys && twice[now] == Some(second)
  {
    SavedIsNewest(first, backupDirectory, files, now);
    BackupTwice(files.Keys, now);
  }
}

=== FILE: scene_search.dfy ===
/**
 * The scene list shown at the top of both windows: the scene asset paths,
 * sorted, and filtered by the search box.
 */
module SceneSearch {
  import opened StringOrder
  import Paths

  predicate IsUpper(c: char) {
    'A' <= c <= 'Z'
  }

  /** Upper-cases the ASCII letters a-z: the letter a character stands for, ignoring case. */
  function UpperChar(c: char): char {
    if 'a' <= c <= 'z' then (c as int - 32) as char else c
  }

  /**
   * Lower-cases the ASCII letters A-Z: the result is no upper-case letter,
   * stands for the same letter as c, and is c itself unless c is upper-case.
   */
  function LowerChar(c: char): (r: char)
    ensures !IsUpper(r)
    ensures UpperChar(r) == UpperChar(c)
    ensures !IsUpper(c) ==> r == c
  {
    if IsUpper(c) then (c as int + 32) as char else c
  }

  /** String.ToLower: no upper-case letter is left, and each character stands for the same letter as before. */
  function Lower(s: string): (r: string)
    ensures |r| == |s|
    ensures forall i :: 0 <= i < |r| ==> !IsUpper(r[i])
    ensures forall i :: 0 <= i < |s| ==> UpperChar(r[i]) == UpperChar(s[i])
    ensures forall i :: 0 <= i < |s| && !IsUpper(s[i]) ==> r[i] == s[i]
  {
    seq(|s|, i requires 0 <= i < |s| => LowerChar(s[i]))
  }

  /** Lower-casing twice is lower-casing once. */
  lemma LowerIdempotent(s: string)
    ensures Lower(Lower(s)) == Lower(s)
  {
  }

  /** Strings that differ only in the case of their letters lower-case to the same string. */
  lemma LowerIgnoresCase(s: string, t: string)
    requires |s| == |t|
    requires forall i :: 0 <= i < |s| ==> UpperChar(s[i]) == UpperChar(t[i])
    ensures Lower(s) == Lower(t)
  {
    forall i | 0 <= i < |s| ensures Lower(s)[i] == Lower(t)[i] {
      SameLetterNotUpper(Lower(s)[i], Lower(t)[i]);
    }
  }

  /** Two characters that are not upper-case letters and stand for the same letter are equal. */
  lemma SameLetterNotUpper(a: char, b: char)
    requires !IsUpper(a) && !IsUpper(b) && UpperChar(a) == UpperChar(b)
    ensures a == b
  {
  }

  /** The search is case-insensitive: changing the case of letters in the query does not change which scenes match. */
  lemma MatchesIgnoresCase(scene: string, query: string, other: string)
    requires |query| == |other|
    requires forall i :: 0 <= i < |query| ==> UpperChar(query[i]) == UpperChar(other[i])
    ensures Matches(scene, query) <==> Matches(scene, other)
  {
    LowerIgnoresCase(query, other);
  }

  /** part occurs in text starting at position i. */
  predicate OccursAt(part: string, text: string, i: int) {
    0 <= i && i + |part| <= |text| && text[i..i + |part|] == part
  }

  /** String.Contains: part occurs somewhere in text (the empty string occurs everywhere). */
  predicate Contains(text: string, part: string) {
    exists i :: 0 <= i <= |text| && OccursAt(part, text, i)
  }

  /**
   * The search test of both windows: an empty query lets every scene through;
   * otherwise the lower-cased base name of the scene must contain the
   * lower-cased query.
   */
  function Matches(scene: string, query: string): (b: bool)
    ensures query == "" ==> b
    ensures b && query != "" ==> |query| <= |Paths.FileNameWithoutExtension(scene)|
  {
    query == "" || Contains(Lower(Paths.FileNameWithoutExtension(scene)), Lower(query))
  }

  /** A query that spells a scene's base name, in any mix of cases, finds that scene. */
  lemma MatchesOwnName(scene: string, query: string)
    requires Lower(query) == Lower(Paths.FileNameWithoutExtension(scene))
    ensures Matches(scene, query)
  {
    var name := Lower(Paths.FileNameWithoutExtension(scene));
    assert OccursAt(name, name, 0);
  }

  /** a is obtained from b by deleting some elements, keeping the rest in order. */
  predicate IsSubsequence<T(==)>(a: seq<T>, b: seq<T>)
    decreases |b|
  {
    |a| == 0 || (|b| > 0 && ((a[0] == b[0] && IsSubsequence(a[1..], b[1..])) || IsSubsequence(a, b[1..])))
  }

  /** The elements of xs that pass keep, in their order in xs. */
  function KeepWhere(xs: seq<string>, keep: string -> bool): (kept: seq<string>)
    ensures IsSubsequence(kept, xs)
    ensures forall s :: s in kept <==> s in xs && keep(s)
    ensures forall s :: multiset(kept)[s] == if keep(s) then multiset(xs)[s] else 0
    ensures (forall i :: 0 <= i < |xs| ==> keep(xs[i])) ==> kept == xs
    ensures Sorted(xs) ==> Sorted(kept)
    decreases |xs|
  {
    if |xs| == 0 then []
    else
      var rest := KeepWhere(xs[1..], keep);
      KeptCounts(xs, rest, keep);
      KeptStep(xs, rest, keep);
      if keep(xs[0]) then [xs[0]] + rest else rest
  }

  /** Keeping or dropping the head of a list in front of its kept tail gives a kept list of the whole. */
  lemma KeptStep(xs: seq<string>, rest: seq<string>, keep: string -> bool)
    requires |xs| > 0
    requires IsSubsequence(rest, xs[1..])
    requires forall s :: s in rest <==> s in xs[1..] && keep(s)
    requires (forall i :: 0 <= i < |xs[1..]| ==> keep(xs[1..][i])) ==> rest == xs[1..]
    requires Sorted(xs[1..]) ==> Sorted(rest)
    ensures var shown := if keep(xs[0]) then [xs[0]] + rest else rest;
      && IsSubsequence(shown, xs)
      && (forall s :: s in shown <==> s in xs && keep(s))
      && ((forall i :: 0 <= i < |xs| ==> keep(xs[i])) ==> shown == xs)
      && (Sorted(xs) ==> Sorted(shown))
  {
    var tail := xs[1..];
    assert xs == [xs[0]] + tail;
    if keep(xs[0]) {
      assert ([xs[0]] + rest)[1..] == rest;
      if (forall i :: 0 <= i < |xs| ==> keep(xs[i])) {
        assert forall i :: 0 <= i < |tail| ==> keep(tail[i]) by {
          forall i | 0 <= i < |tail| ensures keep(tail[i]) {
            assert tail[i] == xs[i + 1];
          }
        }
      }
      if Sorted(xs) {
        PrependSorted(xs[0], xs[0], tail, rest);
      }
    }
  }

  /** Keeping or dropping the head of a list in front of its kept tail keeps each count right. */
  lemma KeptCounts(xs: seq<string>, rest: seq<string>, keep: string -> bool)
    requires |xs| > 0
    requires forall s :: multiset(rest)[s] == if keep(s) then multiset(xs[1..])[s] else 0
    ensures var shown := if keep(xs[0]) then [xs[0]] + rest else rest;
      forall s :: multiset(shown)[s] == if keep(s) then multiset(xs)[s] else 0
  {
    assert xs == [xs[0]] + xs[1..];
    assert multiset(xs) == multiset{xs[0]} + multiset(xs[1..]);
    assert multiset([xs[0]] + rest) == multiset{xs[0]} + multiset(rest);
  }

  /** The scenes the list draws for a query, in list order: the loop skips every scene that does not match. */
  function Filter(scenes: seq<string>, query: string): (shown: seq<string>)
    ensures IsSubsequence(shown, scenes)
    ensures forall s :: s in shown <==> s in scenes && Matches(s, query)
    ensures query == "" ==> shown == scenes
    ensures Sorted(scenes) ==> Sorted(shown)
    ensures forall s :: multiset(shown)[s] == if Matches(s, query) then multiset(scenes)[s] else 0
  {
    KeepWhere(scenes, s => Matches(s, query))
  }

  /** LoadScenes: the scene paths the asset database reports, sorted ascending. */
  function LoadScenes(found: seq<string>): (scenes: seq<string>)
    ensures Sorted(scenes)
    ensures multiset(scenes) == multiset(found)
  {
    Sort(found)
  }

  /** The list drawn for any query is itself in sorted order. */
  lemma ShownScenesSorted(found: seq<string>, query: string)
    ensures Sorted(Filter(LoadScenes(found), query))
    ensures forall s :: s in Filter(LoadScenes(found), query) <==> s in found && Matches(s, query)
  {
    var scenes := LoadScenes(found);
    assert forall s :: s in scenes <==> s in found by {
      forall s ensures s in scenes <==> s in found {
        assert s in scenes <==> s in multiset(scenes);
        assert s in found <==> s in multiset(found);
      }
    }
  }
}

=== FILE: settings.dfy ===
/**
 * The settings window: the backup directory preference, the list of backup
 * files offered for restore, and the guard on the restore button.
 */
module Settings {
  import opened Wrappers
  import opened StringOrder
  import opened Lists
  import Paths
  import opened Backups

  /**
   * An empty backup directory is replaced by the project's data path; any
   * other value is kept.
   */
  function EffectiveDirectory(backupDirectory: string, dataPath: string): (r: string)
    ensures r == backupDirectory || (backupDirectory == "" && r == dataPath)
    ensures dataPath != "" ==> r != ""
  {
    if backupDirectory == "" then dataPath else backupDirectory
  }

  /** The two preferences the settings window writes. */
  datatype Preferences = Preferences(enableBackup: bool, backupDirectory: string)

  /**
   * OnEnable: read both preferences (a missing directory preference defaults
   * to the data path, a missing flag to false) and replace an empty directory
   * by the data path.
   */
  function LoadPreferences(storedFlag: Option<bool>, storedDirectory: Option<string>, dataPath: string): (r: Preferences)
    ensures r.enableBackup == storedFlag.GetOr(false)
    ensures storedDirectory.Some? && storedDirectory.value != "" ==> r.backupDirectory == storedDirectory.value
    ensures storedDirectory.None? || storedDirectory.value == "" ==> r.backupDirectory == dataPath
  {
    Preferences(storedFlag.GetOr(false), EffectiveDirectory(storedDirectory.GetOr(dataPath), dataPath))
  }

  /** SaveSettings: the preferences persisted, never with an empty directory when the data path is set. */
  function SaveSettings(enableBackup: bool, backupDirectory: string, dataPath: string): (r: Preferences)
    ensures r.enableBackup == enableBackup
    ensures dataPath != "" ==> r.backupDirectory != ""
    ensures backupDirectory != "" ==> r.backupDirectory == backupDirectory
    ensures backupDirectory == "" ==> r.backupDirectory == dataPath
  {
    Preferences(enableBackup, EffectiveDirectory(backupDirectory, dataPath))
  }

  /** Saving what was loaded writes the same preferences back. */
  lemma SaveLoadedPreferences(storedFlag: Option<bool>, storedDirectory: Option<string>, dataPath: string)
    requires dataPath != ""
    ensures var p := LoadPreferences(storedFlag, storedDirectory, dataPath);
      SaveSettings(p.enableBackup, p.backupDirectory, dataPath) == p
  {
  }

  /** The full paths of the backup files of a directory, in ascending order. */
  function BackupPaths(backupDirectory: string, stamps: set<Timestamp>): (paths: seq<string>)
    ensures |paths| == |stamps|
    ensures Sorted(paths)
    ensures forall i :: 0 <= i < |paths| ==> Paths.FileName(paths[i]) == BackupName(SortedStamps(stamps)[i])
  {
    var sorted := SortedStamps(stamps);
    var paths := seq(|sorted|, i requires 0 <= i < |sorted| => Paths.Combine(backupDirectory, BackupName(sorted[i])));
    assert Sorted(paths) by {
      forall i, j | 0 <= i < j < |paths| ensures LexLe(paths[i], paths[j]) {
        NameOrder(sorted[i], sorted[j]);
        LexLeCommonPrefix(Paths.DirectoryPrefix(backupDirectory), BackupName(sorted[i]), BackupName(sorted[j]));
      }
    }
    assert forall i :: 0 <= i < |paths| ==> Paths.FileName(paths[i]) == BackupName(sorted[i]) by {
      forall i | 0 <= i < |paths| ensures Paths.FileName(paths[i]) == BackupName(sorted[i]) {
        BackupNameHasNoSeparator(sorted[i]);
      }
    }
    paths
  }

  lemma BackupNameHasNoSeparator(t: Timestamp)
    ensures Paths.NoSeparator(BackupName(t))
  {
    var name := BackupName(t);
    var digits := Digits(t, StampWidth);
    forall i | 0 <= i < |name| ensures !Paths.IsSeparator(name[i]) {
      if i < |NamePrefix| {
        assert name[i] == NamePrefix[i];
      } else if i < |NamePrefix| + StampWidth {
        assert name[i] == digits[i - |NamePrefix|];
        DigitsAreDigits(t, StampWidth, i - |NamePrefix|);
      } else {
        assert name[i] == NameExtension[i - |NamePrefix| - StampWidth];
      }
    }
  }

  lemma {:induction false} DigitsAreDigits(n: nat, width: nat, i: nat)
    requires i < width
    ensures '0' <= Digits(n, width)[i] <= '9'
    decreases width
  {
    if i < width - 1 {
      DigitsAreDigits(n / 10, width - 1, i);
      assert Digits(n, width)[i] == Digits(n / 10, width - 1)[i];
    }
  }

  /** SettingsWindow.backupFiles and selectedBackupIndex. */
  datatype BackupList = BackupList(files: seq<string>, selectedIndex: int)

  /**
   * LoadBackupFiles. listing is what Directory.GetFiles returned for the
   * backup pattern, in whatever order, or None when reading the directory
   * failed. The paths are sorted, cut down to their file names, and the last
   * one is preselected.
   */
  function LoadBackupFiles(backupDirectory: string, directoryExists: bool, listing: Option<seq<string>>): (r: BackupList)
    ensures backupDirectory == "" || !directoryExists || listing.None? ==> r == BackupList([], -1)
    ensures backupDirectory != "" && directoryExists && listing.Some? ==>
      && |r.files| == |listing.value|
      && forall i :: 0 <= i < |r.files| ==> r.files[i] == Paths.FileName(Sort(listing.value)[i])
    ensures r.selectedIndex == |r.files| - 1
    ensures r.selectedIndex == -1 <==> r.files == []
  {
    if backupDirectory != "" && directoryExists && listing.Some? then
      var sorted := Sort(listing.value);
      var files := seq(|sorted|, i requires 0 <= i < |sorted| => Paths.FileName(sorted[i]));
      BackupList(files, if |files| > 0 then |files| - 1 else -1)
    else
      BackupList([], -1)
  }

  /**
   * Whatever order the directory lists its backup files in, the settings
   * window shows their names in time order, oldest first, and preselects the
   * newest: the same file the load step would restore from.
   */
  lemma BackupListInTimeOrder(backupDirectory: string, stamps: set<Timestamp>, listing: seq<string>)
    requires backupDirectory != ""
    requires multiset(listing) == multiset(BackupPaths(backupDirectory, stamps))
    ensures var r := LoadBackupFiles(backupDirectory, true, Some(listing));
      && |r.files| == |stamps|
      && (forall i :: 0 <= i < |r.files| ==> r.files[i] == BackupName(SortedStamps(stamps)[i]))
      && Sorted(r.files)
      && (stamps != {} ==> r.files[r.selectedIndex] == BackupName(Latest(stamps)))
  {
    var sorted := SortedStamps(stamps);
    var paths := BackupPaths(backupDirectory, stamps);
    SortedUnique(Sort(listing), paths);
    ListedNames(backupDirectory, listing, paths, sorted);
  }

  /** The list loaded from a listing that sorts to the paths of the given timestamps, oldest first. */
  lemma ListedNames(backupDirectory: string, listing: seq<string>, paths: seq<string>, sorted: seq<Timestamp>)
    requires backupDirectory != ""
    requires Sort(listing) == paths && |paths| == |sorted| && Increasing(sorted)
    requires forall i :: 0 <= i < |paths| ==> Paths.FileName(paths[i]) == BackupName(sorted[i])
    ensures var r := LoadBackupFiles(backupDirectory, true, Some(listing));
      && |r.files| == |sorted|
      && (forall i :: 0 <= i < |r.files| ==> r.files[i] == BackupName(sorted[i]))
      && Sorted(r.files)
      && (|sorted| > 0 ==> r.files[r.selectedIndex] == BackupName(sorted[|sorted| - 1]))
  {
    var r := LoadBackupFiles(backupDirectory, true, Some(listing));
    NamesInTimeOrder(r.files, sorted);
  }

  /** Backup names listed in timestamp order are in sorted order. */
  lemma NamesInTimeOrder(names: seq<string>, sorted: seq<Timestamp>)
    requires Increasing(sorted) && |names| == |sorted|
    requires forall i :: 0 <= i < |names| ==> names[i] == BackupName(sorted[i])
    ensures Sorted(names)
  {
    forall i, j | 0 <= i < j < |names| ensures LexLe(names[i], names[j]) {
      NameOrder(sorted[i], sorted[j]);
    }
  }

  /**
   * The guard on the restore button: a file is offered only when the
   * selected index lies inside the list.
   */
  function RestoreChoice(list: BackupList): (r: Option<string>)
    ensures r.Some? <==> 0 <= list.selectedIndex < |list.files|
    ensures r.Some? ==> r.value in list.files && r.value == list.files[list.selectedIndex]
  {
    if |list.files| > 0 && 0 <= list.selectedIndex < |list.files| then Some(list.files[list.selectedIndex])
    else None
  }

  /**
   * Right after the list is loaded, restore is offered exactly when there is
   * a backup, and it offers the newest one.
   */
  lemma RestoreOffersNewest(backupDirectory: string, stamps: set<Timestamp>, listing: seq<string>)
    requires backupDirectory != ""
    requires multiset(listing) == multiset(BackupPaths(backupDirectory, stamps))
    ensures stamps == {} ==> RestoreChoice(LoadBackupFiles(backupDirectory, true, Some(listing))) == None
    ensures stamps != {} ==> RestoreChoice(LoadBackupFiles(backupDirectory, true, Some(listing))) == Some(BackupName(Latest(stamps)))
  {
    BackupListInTimeOrder(backupDirectory, stamps, listing);
  }
}

=== FILE: string_order.dfy ===
/**
 * Ordinal (code-point by code-point) lexicographic order on strings and a
 * functional insertion sort with respect to it. This is the order in which
 * the scene list and the backup file listings are sorted.
 */
module StringOrder {

  /** a sorts no later than b: a is a prefix of b, or differs first by a smaller character. */
  predicate LexLe(a: string, b: string)
    decreases |a|
  {
    |a| == 0 || (|b| > 0 && (a[0] < b[0] || (a[0] == b[0] && LexLe(a[1..], b[1..]))))
  }

  /** Every earlier element sorts no later than every later one. */
  predicate Sorted(s: seq<string>) {
    forall i, j :: 0 <= i < j < |s| ==> LexLe(s[i], s[j])
  }

  lemma {:induction false} LexLeReflexive(a: string)
    ensures LexLe(a, a)
    decreases |a|
  {
    if |a| > 0 {
      LexLeReflexive(a[1..]);
    }
  }

  lemma {:induction false} LexLeTotal(a: string, b: string)
    ensures LexLe(a, b) || LexLe(b, a)
    decreases |a|
  {
    if |a| > 0 && |b| > 0 && a[0] == b[0] {
      LexLeTotal(a[1..], b[1..]);
    }
  }

  lemma {:induction false} LexLeAntisymmetric(a: string, b: string)
    requires LexLe(a, b) && LexLe(b, a)
    ensures a == b
    decreases |a|
  {
    if |a| > 0 {
      LexLeAntisymmetric(a[1..], b[1..]);
      assert a == [a[0]] + a[1..];
      assert b == [b[0]] + b[1..];
    }
  }

  lemma {:induction false} LexLeTransitive(a: string, b: string, c: string)
    requires LexLe(a, b) && LexLe(b, c)
    ensures LexLe(a, c)
    decreases |a|
  {
    if |a| > 0 && a[0] == b[0] && b[0] == c[0] {
      LexLeTransitive(a[1..], b[1..], c[1..]);
    }
  }

  /** A common prefix does not affect the comparison. */
  lemma {:induction false} LexLeCommonPrefix(p: string, x: string, y: string)
    ensures LexLe(p + x, p + y) <==> LexLe(x, y)
    decreases |p|
  {
    if |p| == 0 {
      assert p + x == x && p + y == y;
    } else {
      assert (p + x)[0] == (p + y)[0] == p[0];
      assert (p + x)[1..] == p[1..] + x;
      assert (p + y)[1..] == p[1..] + y;
      LexLeCommonPrefix(p[1..], x, y);
    }
  }

  /**
   * Two different strings of equal length are ordered by themselves, whatever
   * is appended to each of them.
   */
  lemma {:induction false} LexLeDifferentHeads(x: string, y: string, s: string, t: string)
    requires |x| == |y| && x != y
    ensures LexLe(x + s, y + t) <==> LexLe(x, y)
    decreases |x|
  {
    assert |x| > 0;
    assert (x + s)[0] == x[0] && (y + t)[0] == y[0];
    if x[0] == y[0] {
      assert x[1..] != y[1..] by {
        assert x == [x[0]] + x[1..];
        assert y == [y[0]] + y[1..];
      }
      assert (x + s)[1..] == x[1..] + s;
      assert (y + t)[1..] == y[1..] + t;
      LexLeDifferentHeads(x[1..], y[1..], s, t);
    }
  }

  /** Inserts x before the first element that sorts strictly after it. */
  function Insert(x: string, s: seq<string>): (r: seq<string>)
    requires Sorted(s)
    ensures Sorted(r)
    ensures multiset(r) == multiset(s) + multiset{x}
    ensures |r| == |s| + 1
  {
    if |s| == 0 then [x]
    else if LexLe(x, s[0]) then
      ConsSorted(x, s);
      [x] + s
    else
      LexLeTotal(x, s[0]);
      var rest := Insert(x, s[1..]);
      assert s == [s[0]] + s[1..];
      assert forall y :: y in rest ==> y == x || y in s[1..] by {
        forall y | y in rest ensures y == x || y in s[1..] {
          assert y in multiset(rest);
        }
      }
      PrependSorted(s[0], x, s[1..], rest);
      [s[0]] + rest
  }

  /** A string that sorts at or before the head of a sorted list can go in front of it. */
  lemma ConsSorted(x: string, s: seq<string>)
    requires Sorted(s) && (|s| > 0 ==> LexLe(x, s[0]))
    ensures Sorted([x] + s)
  {
    forall i, j | 0 <= i < j < |[x] + s| ensures LexLe(([x] + s)[i], ([x] + s)[j]) {
      if i == 0 && j > 1 {
        LexLeTransitive(x, s[0], s[j - 1]);
      }
    }
  }

  /**
   * h stays in front of a sorted list whose elements are x or come from
   * tail, when h sorts at or before x and before everything in tail.
   */
  lemma PrependSorted(h: string, x: string, tail: seq<string>, rest: seq<string>)
    requires Sorted([h] + tail) && (h == x || LexLe(h, x)) && Sorted(rest)
    requires forall y :: y in rest ==> y == x || y in tail
    ensures Sorted([h] + rest)
  {
    forall k | 0 <= k < |rest| ensures LexLe(h, rest[k]) {
      if rest[k] == x {
        LexLeReflexive(h);
      } else {
        assert rest[k] in rest;
        var m :| 0 <= m < |tail| && tail[m] == rest[k];
        assert ([h] + tail)[0] == h && ([h] + tail)[m + 1] == rest[k];
        assert LexLe(([h] + tail)[0], ([h] + tail)[m + 1]);
      }
    }
    forall i, j | 0 <= i < j < |[h] + rest| ensures LexLe(([h] + rest)[i], ([h] + rest)[j]) {
      if i > 0 {
        assert ([h] + rest)[i] == rest[i - 1] && ([h] + rest)[j] == rest[j - 1];
      }
    }
  }

  /** Sorts a list of strings ascending (the effect of List.Sort on the scene paths). */
  function Sort(s: seq<string>): (r: seq<string>)
    ensures Sorted(r)
    ensures multiset(r) == multiset(s)
    ensures |r| == |s|
  {
    if |s| == 0 then []
    else
      assert s == s[..|s| - 1] + [s[|s| - 1]];
      Insert(s[|s| - 1], Sort(s[..|s| - 1]))
  }

  /** A sorted arrangement of given strings is unique: sorting any listing of them gives it. */
  lemma {:induction false} SortedUnique(a: seq<string>, b: seq<string>)
    requires Sorted(a) && Sorted(b) && multiset(a) == multiset(b)
    ensures a == b
    decreases |a|
  {
    assert |a| == |multiset(a)| == |multiset(b)| == |b|;
    if |a| > 0 {
      SortedHeadsAgree(a, b);
      SameTails(a, b);
      SortedUnique(a[1..], b[1..]);
      assert a == [a[0]] + a[1..] && b == [b[0]] + b[1..];
    }
  }

  /** Two sorted arrangements of the same strings start with the same string. */
  lemma SortedHeadsAgree(a: seq<string>, b: seq<string>)
    requires Sorted(a) && Sorted(b) && multiset(a) == multiset(b) && |a| > 0
    ensures |b| > 0 && a[0] == b[0]
  {
    assert a[0] in multiset(b);
    var i :| 0 <= i < |b| && b[i] == a[0];
    assert b[0] in multiset(a);
    var j :| 0 <= j < |a| && a[j] == b[0];
    assert LexLe(b[0], a[0]) by {
      if i > 0 { assert LexLe(b[0], b[i]); } else { LexLeReflexive(b[0]); }
    }
    assert LexLe(a[0], b[0]) by {
      if j > 0 { assert LexLe(a[0], a[j]); } else { LexLeReflexive(a[0]); }
    }
    LexLeAntisymmetric(a[0], b[0]);
  }

  /** Dropping an equal first string from two listings of the same strings leaves listings of the same strings. */
  lemma SameTails(a: seq<string>, b: seq<string>)
    requires multiset(a) == multiset(b) && |a| > 0 && |b| > 0 && a[0] == b[0]
    ensures multiset(a[1..]) == multiset(b[1..])
  {
    assert a == [a[0]] + a[1..] && b == [b[0]] + b[1..];
    assert multiset(a[1..]) == multiset(a) - multiset([a[0]]);
    assert multiset(b[1..]) == multiset(b) - multiset([b[0]]);
  }
}

=== FILE: wrappers.dfy ===
/** Optional values, used for lookups that may find nothing. */
module Wrappers {

  datatype Option<+T> = None | Some(value: T) {

    /** Returns the value held in Some, or the default for None. */
    function GetOr(default: T): T {
      match this
      case Some(v) => v
      case None => default
    }
  }
}
